=== FILE: README.md ===
# Conversation and catalog model of the Araras Impressão dashboard

The dashboard lets a print shop answer WhatsApp customers with a language-model
assistant and manage the product catalog that assistant offers. This project
models its conversation and catalog state machine in Dafny:

- the server's chat routes (create a chat, post a message with an automatic
  answer, set the AI flag, summarise a chat);
- the carrier webhook, which finds or creates the sender's chat;
- the shaping done before every model call: the history conversion and its
  "last turn must be the customer's" guard, the catalog and policy fallbacks,
  the order-summary transcript and the analytics input;
- the dashboard's client-side steps: chat ordering and auto-selection,
  optimistic send and toggle with revert, report generation with the HTML
  escape of the summary, the product search filter, the product form, the
  product/settings list updates, and report deletion.

All state is immutable datatypes over `seq`, and every handler is one pure
transition. The language model is a function parameter `ai` from what it is
sent to a `ModelReply` (`Answered(text)` or `Failed`). Clock readings are `nat`
parameters. The outcome of a client request (`ok`, or the body the server sent
back) is a parameter too.

Modules, one per file: `Lists` and `Strings` (JavaScript array and string
operations the code relies on), `Types` (types.ts), `ChatService`
(services/chatservice.ts), `Server` (index.ts, which reads its chats, products
and settings as module-level values imported from data.ts at index.ts:8, where
data.ts exports them only under the names `initialChats`, `initialProducts`
and `initialSettings`; the routes take them as parameters here), `Webhook`
(services/twilioservice.ts and its earlier copy twilioService.ts, which
imports its state from data.ts in the same way as index.ts and does not save;
both take the lists as parameters here), `Inbox` (components/WhatsApp.tsx),
`Catalog` (components/products.tsx and the product and settings updates of app.tsx, with app.ts as an older copy of
the same updates), `Reports` (components/reports.tsx).

A product's active flag plays no part in the assistant's catalog:
`createSystemInstruction` lists every product it is given
(services/chatservice.ts:16-18). `ChatService.CatalogIgnoresActive` proves the
flag has no effect on the catalog text, and `ChatService.InstructionIgnoresActive`
carries this to the whole system instruction sent with every chat request.

## Model

Helpers without a row (`ChatService.ProductLine`, `Server.ChatIdAt`,
`Types.AvatarUrl`, `Webhook.NewSenderChat`, `Catalog.MatchesQuery`,
`Catalog.Merge`, `Catalog.MissingRequired`, `Inbox.CanGenerateReport` and the
like) are definitions of single source expressions; the contracts of the
members in the table that use them pin them down.

| member | source | states |
|---|---|---|
| Lists.FirstIndex | components/WhatsApp.tsx:80 | `find`: the first element satisfying the predicate, with none before it; `None` exactly when no element satisfies it |
| Lists.Filter | app.tsx:112 | `filter`: as many elements as satisfy the predicate, each satisfying it, drawn from the input as a sub-multiset |
| Lists.FilterIsSubsequence | app.ts:100 | the filtered list keeps the input's order (is a subsequence of it) |
| Lists.FilterMembership | components/reports.tsx:27 | an element is in the filtered list exactly when it is in the input and satisfies the predicate |
| Lists.FilterAllKept | components/products.tsx:138 | filtering by a predicate every element satisfies returns the input |
| Lists.FilterIdempotent | components/reports.tsx:27 | filtering twice by the same predicate is filtering once |
| Lists.FilterAppend | app.tsx:73-118 | filtering distributes over concatenation |
| Lists.MapWhere | app.tsx:98 | the `map(x => hit ? f(x) : x)` idiom: same length, `f` applied exactly at the hits, every other element unchanged |
| Lists.MapWhereNoMatch | components/WhatsApp.tsx:131-133 | with no hit the list is unchanged |
| Strings.Join | services/chatservice.ts:18 | `join`: empty for no parts, length is the parts' total plus separators, starts with the first part |
| Strings.JoinAppend | services/chatservice.ts:153 | joining two non-empty lists is joining each with one separator between them |
| Strings.JoinEmptyIff | services/chatservice.ts:30 | joining non-empty parts is empty exactly when there are no parts, which is when the fallback text is used |
| Strings.ToLower | components/products.tsx:137 | ASCII `toLowerCase`: same length, no upper-case letter left, each character lowered on its own |
| Strings.ToLowerIdempotent | components/products.tsx:137 | lowering twice is lowering once, so a query already lowered gives the same search |
| Strings.Includes | components/products.tsx:140-145 | `includes` holds exactly when the needle occurs at some position of the text |
| Strings.IncludesEmpty | components/products.tsx:138-146 | the empty needle is included in every text, so the empty-query shortcut agrees with the match test |
| Strings.Trim | components/WhatsApp.tsx:158 | `trim()` is the slice of the text left after cutting the white space at both ends; it is empty exactly when every character is JavaScript white space, and otherwise starts and ends with a non-space character |
| Strings.NatToString | index.ts:64 | the decimal text of a count: non-empty, all digits, no leading zero |
| Strings.ParseNatToString | index.ts:64-65 | reading the decimal text back gives the number |
| Strings.NatToStringInjective | index.ts:64-65 | different clock readings give different chat ids |
| Strings.IntToString | components/products.tsx:145 | `toString` of an integer: a leading minus exactly for negatives |
| Strings.ParseIntToString | services/chatservice.ts:17 | reading the quantity text back gives the quantity |
| Strings.LastChars | services/twilioservice.ts:22 | `slice(-n)`: the last `min(n, length)` characters, a suffix of the text |
| Strings.ReplaceChar | components/WhatsApp.tsx:258 | a global single-character replace leaves no occurrence when the replacement has none |
| Types.FindChat | index.ts:88 | the first chat with the id: none before it, and `None` exactly when no chat has it |
| ChatService.ProductLines | services/chatservice.ts:16-17 | one catalog line per product, in catalog order |
| ChatService.CatalogSection | services/chatservice.ts:16-30 | the fallback "Nenhum produto cadastrado ainda." exactly for an empty catalog, otherwise the lines joined by newlines |
| ChatService.JoinedCatalogShape | services/chatservice.ts:16-18 | the joined lines are empty exactly for an empty catalog |
| ChatService.PolicyText | services/chatservice.ts:33-35 | a policy is shown as written when non-empty, and as "Não definida." when empty |
| ChatService.CreateSystemInstruction | services/chatservice.ts:15-53 | the catalog is the catalog section of the products (the fallback exactly for an empty catalog, otherwise starting with the first product's line); each policy as written when set and "Não definida." when empty; the art-briefing policy also interpolated as written |
| ChatService.ProductLineSingleLine | services/chatservice.ts:17 | a product whose texts have no line break gives a single catalog line |
| ChatService.CatalogOneLinePerProduct | services/chatservice.ts:16-18 | splitting the catalog at newlines gives back exactly one line per product, in order |
| ChatService.CatalogIgnoresActive | services/chatservice.ts:16-18 | catalogs differing only in active flags produce the same catalog text |
| ChatService.InstructionIgnoresActive | services/chatservice.ts:15-53 | catalogs differing only in active flags produce the same system instruction |
| ChatService.ToContent | services/chatservice.ts:77-80 | a message becomes a turn with its text; the model role exactly for assistant messages |
| ChatService.ConvertHistory | services/chatservice.ts:75-80 | every converted turn comes from a non-system message; never more turns than messages |
| ChatService.ConvertHistoryAppend | services/chatservice.ts:75-80 | the conversion keeps order: it distributes over concatenation |
| ChatService.ConvertHistoryNoSystem | services/chatservice.ts:76-80 | without system messages, one turn per message; assistant maps to the model role, every other role to the user role |
| ChatService.ConvertHistoryAllSystem | services/chatservice.ts:76 | a history of system messages only converts to no turns at all |
| ChatService.PrepareChat | services/chatservice.ts:82-95 | no request exactly when the converted history is empty or ends with a model turn; otherwise the request's history plus the user message is the whole converted history |
| ChatService.GenerateChatResponse | services/chatservice.ts:67-101 | the fixed "Não foi possível processar a última mensagem." when the guard refuses; otherwise the provider's text, or the fixed apology when it fails |
| ChatService.GuardSkipsProvider | services/chatservice.ts:82-85 | when the guard refuses, the answer is the same whatever the provider would say |
| ChatService.UserLastReachesProvider | services/chatservice.ts:82-95 | a history ending with a customer message reaches the provider with the earlier turns converted and that message as the new one |
| ChatService.TranscriptLines | services/chatservice.ts:106-107 | one transcript line per message, in order |
| ChatService.TranscriptLabels | services/chatservice.ts:107 | customer lines begin "Cliente: " and all other roles "Assistente: ", both directions |
| ChatService.TranscriptOneLinePerMessage | services/chatservice.ts:106-108 | splitting the transcript at newlines gives back the message lines when the messages are single lines |
| ChatService.Transcript | services/chatservice.ts:106-108 | the transcript is empty exactly for an empty history and starts with the first message's labelled line |
| ChatService.GenerateOrderSummary | services/chatservice.ts:104-140 | the provider is sent the transcript; a failure becomes the fixed summary apology |
| ChatService.UserContents | services/chatservice.ts:151-152 | a chat contributes at most one text per message |
| ChatService.UserContentsMembership | services/chatservice.ts:151-152 | a text is extracted from a chat exactly when a customer message of it carries that text |
| ChatService.UserContentsAppend | services/chatservice.ts:150-152 | extraction keeps message order |
| ChatService.AllUserContents | services/chatservice.ts:149-152 | no texts without chats; every text extracted is a customer text of some chat |
| ChatService.AllUserContentsMembership | services/chatservice.ts:149-152 | a text is in the analytics input exactly when some chat has a customer message with it |
| ChatService.AllUserContentsAppend | services/chatservice.ts:149-150 | extraction keeps chat order |
| ChatService.UserContentsIsFilterMap | services/chatservice.ts:151-152 | a chat's customer texts are the contents of its customer messages, in order and with repeats |
| ChatService.AllUserContentsIsFlatMap | services/chatservice.ts:149-152 | the analytics texts are the `flatMap`, `filter` and `map` chain over all chats: every customer message's content, chat by chat and message by message, with repeats |
| ChatService.AnalyticsPrompt | services/chatservice.ts:149-153 | empty without customer texts; a single text as it is; otherwise the first text, the separator "\n---\n", then the rest joined by it |
| ChatService.AnalyticsPromptAppend | services/chatservice.ts:149-153 | the input for two chat lists with customer texts is their two inputs with one separator between |
| ChatService.GenerateAnalyticsInsights | services/chatservice.ts:143-180 | the fixed "Nenhuma conversa para analisar ainda." for no chats; otherwise the provider's answer to the joined customer texts, or the fixed apology |
| ChatService.AnalyticsEmptySkipsProvider | services/chatservice.ts:144-146 | with no chats the answer does not depend on the provider |
| Server.CreateChat | index.ts:60-83 | the new chat is AI-active, takes its id from its own clock reading, is named as asked, holds exactly the customer's message then the assistant's answer, each stamped with its own reading, and heads the list with the old chats shifted unchanged |
| Server.CreateChatConsultsProvider | index.ts:75-76 | the first answer is the provider's reply to the first message with no earlier turns, or the fixed apology |
| Server.PostMessage | index.ts:85-106 | 404 exactly when no chat has the id; otherwise only the first such chat changes, the message is appended, then one assistant answer exactly when the AI is on and the role is the customer's (+2, else +1); the activity time is the message's reading, or the later reading taken after the answer |
| Server.PostMessageTouchesOnlyTarget | index.ts:88-99 | the list keeps its length and every chat but the target; a 404 leaves it as it was |
| Server.PostMessageAnswerFromProvider | index.ts:95-97 | the automatic answer is the provider's reply to the history before the message, or the fixed apology |
| Server.ToggleAi | index.ts:108-120 | 404 exactly when no chat has the id; otherwise the first such chat gets the requested flag, nothing else changes |
| Server.ToggleAiIdempotent | index.ts:110-116 | repeating a toggle request changes nothing more, and no chat's messages change |
| Server.ReportSummary | index.ts:122-131 | 404 exactly when no chat has the id; otherwise the summary of that chat's transcript, with no chat list to change |
| Webhook.FindBySender | services/twilioservice.ts:15 | the first chat whose contact is the sender, and `None` exactly when there is none |
| Webhook.LocateSender | twilioService.ts:13-29 | a known sender's chat is used in place; otherwise a new chat for the sender is prepended and used |
| Webhook.HandleIncomingMessage | services/twilioservice.ts:9-65 | other chats unchanged; the customer's message appended, then the assistant's answer exactly when the chat's AI is on; the reply text is that answer, else the fixed "desativado" text |
| Webhook.KnownSenderReused | services/twilioservice.ts:15-17 | with a known sender the list keeps its length and every chat its id and contact |
| Webhook.NewSenderPrepended | twilioService.ts:15-38 | an unknown sender gets a new AI-active chat at the head, named "Cliente " plus the number's last four characters, the old chats following unchanged |
| Webhook.ActiveReplyFromProvider | twilioService.ts:40-57 | with the AI on, the reply text is always the provider's answer or the fixed apology, never the guard's refusal |
| Inbox.InsertByRecency | components/WhatsApp.tsx:76 | inserting into a list sorted by recency keeps it sorted and adds exactly that chat |
| Inbox.SortByRecency | components/WhatsApp.tsx:75-77 | `sortedChats` is a permutation of the chats by non-increasing last-message time |
| Inbox.SortedHeadIsMostRecent | components/WhatsApp.tsx:123-124 | the head of the sorted list is a chat at least as recent as every chat |
| Inbox.SortedHeadIsFirstMostRecent | components/WhatsApp.tsx:75-77 | with the stable sort, the head is the first chat in list order with the latest time |
| Inbox.AutoSelect | components/WhatsApp.tsx:122-126 | with nothing selected and some chat, the first chat in list order with the latest time is selected; otherwise the selection stays |
| Inbox.SelectedChat | components/WhatsApp.tsx:79-81 | the selected chat is the first with the selected id, with none before it; absent exactly when none has it |
| Inbox.AppendOptimistic | components/WhatsApp.tsx:172-176 | the message goes at the end of the chats with the id, whose time becomes its time; other chats unchanged |
| Inbox.SendMessage | components/WhatsApp.tsx:156-199 | blank input or no selection does nothing; otherwise the customer role exactly when the AI is on, the input cleared, the optimistic list kept on success and the snapshot restored on failure |
| Inbox.ManualSendMatchesServer | components/WhatsApp.tsx:167-185 | with the AI off, one chat per id, and the server stamping the message with the client's clock reading (components/WhatsApp.tsx:167 used as index.ts:91), the optimistic list is the list the server's message route produces |
| Inbox.FlipAi | components/WhatsApp.tsx:131-133 | exactly the chats with the id have their flag negated |
| Inbox.FlipAiInvolution | components/WhatsApp.tsx:131-133 | flipping twice restores the list |
| Inbox.ToggleAi | components/WhatsApp.tsx:128-154 | the request carries the negation of the original flag; the flip is kept on success and reverted on failure; no request without a matching chat |
| Inbox.ToggleMatchesServer | components/WhatsApp.tsx:139-143 | with one chat per id, the optimistic flip is the list the server's toggle route produces |
| Inbox.EscapeAngles | components/WhatsApp.tsx:258 | the escaped summary contains no `<` and no `>` |
| Inbox.EscapeAnglesPerChar | components/WhatsApp.tsx:258 | the two global replacements equal escaping each character alone: every other character is kept, in order |
| Inbox.EscapeAnglesPlain | components/WhatsApp.tsx:258 | text without angle brackets is shown unchanged |
| Inbox.GenerateReport | components/WhatsApp.tsx:227-244 | no chat, no messages or a report under way does nothing; otherwise a successful summary prepends the report for the selected chat, with its id and date from two separate clock readings, and shows the escaped text |
| Inbox.ReportMatchesServer | components/WhatsApp.tsx:232-244 | when the summary is the server's report route answer for the selected chat, the report carries that chat's order summary and the escaped summary is shown |
| Inbox.NewChatSubmission | components/WhatsApp.tsx:26-30 | submits exactly when both texts have a non-space character, and submits them untrimmed |
| Inbox.NewChatSubmissionIgnoresPadding | components/WhatsApp.tsx:28-29 | white space around either text never decides whether the form submits, and is submitted with the text |
| Catalog.FilterProducts | components/products.tsx:136-147 | an empty query keeps every product; otherwise the products matching the lowered query, in order |
| Catalog.FilterProductsMembership | components/products.tsx:139-146 | a product is a result exactly when it is in the catalog and the lowered query occurs in a lowered text field or the quantity's digits |
| Catalog.FilterProductsOrdered | components/products.tsx:136 | the results are a subsequence of the catalog |
| Catalog.EmptyQueryShortcut | components/products.tsx:136-147 | with or without the empty-query shortcut, the results are the products matching the lowered query |
| Catalog.FilterIgnoresQueryCase | components/products.tsx:137 | searching for the lowered query gives the same results as the query itself |
| Catalog.MatchIgnoresActive | components/products.tsx:139-146 | the active flag does not decide whether a product matches |
| Catalog.InitialForm | components/products.tsx:30-48 | a fresh form has quantity 100 and empty texts; an edit form holds the product's own fields |
| Catalog.SubmitForm | components/products.tsx:60-72 | rejected exactly when a required text is empty; an edit overwrites the seven fields keeping id and active flag; an add passes exactly the seven fields |
| Catalog.UnchangedEditRoundTrip | components/products.tsx:64-67 | submitting an untouched edit form asks to store the product exactly as it was |
| Catalog.BlankFormRejected | components/products.tsx:39-62 | a fresh form cannot be submitted as it is |
| Catalog.AddProduct | app.tsx:73-88 | a successful add appends the returned product at the end; a failure changes nothing |
| Catalog.UpdateProduct | app.tsx:90-104 | same length, every product with the id replaced, the others unchanged; a failure changes nothing |
| Catalog.UpdateProductKeepsIds | app.ts:79-92 | updating keeps every position's id, and updating twice is updating once |
| Catalog.DeleteProduct | app.tsx:106-118 | no product with the id is left, as many remain as have another id, all drawn from the list; a failure changes nothing |
| Catalog.DeleteProductKeepsOthers | app.ts:94-105 | a product survives exactly when its id differs, and the survivors keep their order |
| Catalog.DeleteUndoesAdd | app.ts:63-105 | deleting the id of a product just added gives what deleting it before the add gives |
| Catalog.DeleteAfterUpdate | app.ts:79-105 | deleting an id after updating it is deleting it |
| Catalog.UpdateSettings | app.tsx:120-135 | true with the new settings on success; false with the settings unchanged on failure |
| Reports.HandleDelete | components/reports.tsx:19-36 | without confirmation nothing happens; otherwise one request, the reports with the id removed only on success, and no deletion under way afterwards |
| Reports.DeleteKeepsOthers | components/reports.tsx:27 | a report survives exactly when its id differs, and the survivors keep their order |
| Reports.DeleteIdempotent | components/reports.tsx:27 | deleting the same report again changes nothing |

## Left out

- The language-model and carrier SDK calls, and the TwiML reply markup: foreign calls. The model is a parameter and the reply is its text.
- The wording of the prompts around the interpolated parts: only the catalog, the policies, the transcript and the analytics input are modelled.
- The WebSocket server, the broadcast after every change and the client's socket handler: networking. Each broadcast is the new chat list itself.
- Persistence in db.ts (`getChats`, `getProducts`, `getSettings` and `saveChats` in services/twilioservice.ts): file I/O. The state they read is a parameter, as is the data.ts state that index.ts (line 8) and the older twilioService.ts import under names data.ts does not export; the model treats that state as the live lists.
- The webhook route's 500 answer and the list route GET /chats: the first is a thrown-error path around the modelled handler, the second returns the list unchanged.
- servidor.js: a standalone webhook that only calls the provider and the carrier.
- Dates: clock readings are `nat`, one parameter per `new Date()` whose value is kept, and ISO text appears only as the two clock parameters of report generation. The client's sort compares the numbers that `Date` parsing would yield.
- Id generation from the clock: ids are not assumed unique. `Inbox.ManualSendMatchesServer` and `Inbox.ToggleMatchesServer` state uniqueness as a precondition instead.
- Strings.ToLower: ASCII letters only, because Unicode case mapping is not modelled.
- Catalog.FilterProducts: quantities are integers; the fractional and `NaN` values a number input can hold are not modelled. The same holds for `Catalog.ProductFields.quantity` and for the quantity interpolated into the catalog line by `ChatService.ProductLine` (services/chatservice.ts:17).
- Inbox.SortByRecency: states a sorted permutation; of the stability of JavaScript's sort for chats with equal times it proves only what the selection uses, that the head is the first most recent chat (`Inbox.SortedHeadIsFirstMostRecent`).
- Catalog.UpdateProduct: applies to the list at the time the request completes. The source's handler reads the list it captured when called, so a concurrent change could be lost.
- Catalog.DeleteProduct: same as UpdateProduct.
- Async interleaving between handlers: each handler is one atomic step.
- `handleAddNewChat` in components/WhatsApp.tsx: it only selects the chat the server returned; the chat itself is `Server.CreateChat`.
- The loading flags and toasts.
- Roles outside the three enum values: a request body carrying another role string is not modelled.
- `toggleProductStatus`: the catalog page's switch calls it, but app.tsx and app.ts never pass one in, so no state change or request follows.
- The dashboard, settings, toast and toggle-switch components and the seed data: no logic beyond rendering.

=== FILE: catalog.dfy ===
/**
 The product catalog on the dashboard: the search filter and the product
 form (components/products.tsx), and the state updates that follow the
 server's answer to an add, update, delete or settings save (app.tsx; app.ts
 is an older copy with the same updates). `ok` stands for `response.ok`; a
 request that throws behaves as one that is not ok.
 */
module Catalog {
  import opened Lists
  import opened Strings
  import opened Types

  // ---------------------------------------------------------------------------
  // search

  /** A product matches a lowered query in a lowered text field or in its quantity's digits. */
  predicate MatchesQuery(p: Product, query: string)
  {
    || Includes(ToLower(p.name), query)
    || Includes(ToLower(p.description), query)
    || Includes(ToLower(p.productType), query)
    || Includes(ToLower(p.size), query)
    || Includes(ToLower(p.productionTime), query)
    || Includes(IntToString(p.quantity), query)
  }

  /** `filteredProducts`: every product for an empty query, else the matching ones in order. */
  function FilterProducts(products: seq<Product>, searchQuery: string): (r: seq<Product>)
    ensures searchQuery == "" ==> r == products
    ensures searchQuery != "" ==> r == Filter(products, (p: Product) => MatchesQuery(p, ToLower(searchQuery)))
  {
    var query := ToLower(searchQuery);
    if query == "" then products else Filter(products, (p: Product) => MatchesQuery(p, query))
  }

  /** A product is a search result exactly when it is in the catalog and the query occurs in one of its texts. */
  lemma FilterProductsMembership(products: seq<Product>, searchQuery: string, p: Product)
    requires searchQuery != ""
    ensures var q := ToLower(searchQuery);
      p in FilterProducts(products, searchQuery) <==>
        p in products
        && (|| Occurs(ToLower(p.name), q) || Occurs(ToLower(p.description), q)
            || Occurs(ToLower(p.productType), q) || Occurs(ToLower(p.size), q)
            || Occurs(ToLower(p.productionTime), q) || Occurs(IntToString(p.quantity), q))
  {
    FilterMembership(products, (x: Product) => MatchesQuery(x, ToLower(searchQuery)), p);
  }

  /** The results keep the catalog's order: they are a subsequence of it. */
  lemma FilterProductsOrdered(products: seq<Product>, searchQuery: string)
    ensures IsSubsequence(FilterProducts(products, searchQuery), products)
  {
    if searchQuery == "" {
      FilterAllKept(products, (p: Product) => true);
      FilterIsSubsequence(products, (p: Product) => true);
    } else {
      FilterIsSubsequence(products, (p: Product) => MatchesQuery(p, ToLower(searchQuery)));
    }
  }

  /** The empty-query shortcut is only a shortcut: with it, the result is still the matching products. */
  lemma EmptyQueryShortcut(products: seq<Product>, searchQuery: string)
    ensures FilterProducts(products, searchQuery) == Filter(products, (p: Product) => MatchesQuery(p, ToLower(searchQuery)))
  {
    if ToLower(searchQuery) == "" {
      forall i | 0 <= i < |products|
        ensures MatchesQuery(products[i], ToLower(searchQuery))
      {
        IncludesEmpty(ToLower(products[i].name));
      }
      FilterAllKept(products, (p: Product) => MatchesQuery(p, ToLower(searchQuery)));
    }
  }

  /** The search ignores case: lowering the query first gives the same results. */
  lemma FilterIgnoresQueryCase(products: seq<Product>, searchQuery: string)
    ensures FilterProducts(products, ToLower(searchQuery)) == FilterProducts(products, searchQuery)
  {
    ToLowerIdempotent(searchQuery);
    EmptyQueryShortcut(products, searchQuery);
    EmptyQueryShortcut(products, ToLower(searchQuery));
  }

  /** The active flag does not decide whether a product is a search result. */
  lemma MatchIgnoresActive(p: Product, query: string, active: bool)
    ensures MatchesQuery(p, query) == MatchesQuery(p.(isActive := active), query)
  {
  }

  // ---------------------------------------------------------------------------
  // product form

  /** The seven form fields: a product without `id` and `isActive`. */
  datatype ProductFields = ProductFields(
    name: string,
    description: string,
    image: string,
    productType: string,
    size: string,
    quantity: int,
    productionTime: string)

  /** The form's contents when it opens: the product being edited, or blank with quantity 100. */
  function InitialForm(productToEdit: Option<Product>): (f: ProductFields)
    ensures productToEdit.None? ==> f.quantity == 100
    ensures productToEdit.None? ==> f.name == f.description == f.image == f.productType == f.size == f.productionTime == ""
    ensures productToEdit.Some? ==> Merge(productToEdit.value, f) == productToEdit.value
  {
    match productToEdit
    case None => ProductFields("", "", "", "", "", 100, "")
    case Some(p) => ProductFields(p.name, p.description, p.image, p.productType, p.size, p.quantity, p.productionTime)
  }

  /** `{ ...product, ...fields }`: the fields overwrite, `id` and `isActive` stay. */
  function Merge(p: Product, f: ProductFields): Product
  {
    Product(p.id, f.name, f.description, f.image, f.productType, f.size, f.quantity, f.productionTime, p.isActive)
  }

  /** The required texts; the image and the quantity are not checked. */
  predicate MissingRequired(f: ProductFields)
  {
    f.name == "" || f.description == "" || f.productType == "" || f.size == "" || f.productionTime == ""
  }

  datatype FormAction = Rejected | UpdateRequest(product: Product) | AddRequest(fields: ProductFields)

  /** `ProductForm.handleSubmit`. */
  function SubmitForm(f: ProductFields, productToEdit: Option<Product>): (r: FormAction)
    ensures r.Rejected? <==> MissingRequired(f)
    ensures r.UpdateRequest? ==>
      && productToEdit.Some?
      && r.product.id == productToEdit.value.id && r.product.isActive == productToEdit.value.isActive
      && r.product.name == f.name && r.product.description == f.description && r.product.image == f.image
      && r.product.productType == f.productType && r.product.size == f.size
      && r.product.quantity == f.quantity && r.product.productionTime == f.productionTime
    ensures r.AddRequest? ==> productToEdit.None? && r.fields == f
    ensures !MissingRequired(f) ==> (productToEdit.Some? <==> r.UpdateRequest?)
  {
    if MissingRequired(f) then Rejected
    else match productToEdit
      case Some(p) => UpdateRequest(Merge(p, f))
      case None => AddRequest(f)
  }

  /** Submitting an edit form left untouched asks to store the product as it was. */
  lemma UnchangedEditRoundTrip(p: Product)
    requires p.name != "" && p.description != "" && p.productType != "" && p.size != "" && p.productionTime != ""
    ensures SubmitForm(InitialForm(Some(p)), Some(p)) == UpdateRequest(p)
  {
  }

  /** A blank form is always rejected. */
  lemma BlankFormRejected()
    ensures SubmitForm(InitialForm(None), None) == Rejected
  {
  }

  // ---------------------------------------------------------------------------
  // product and settings state

  /** `addProduct`: appends the product the server returned. */
  function AddProduct(products: seq<Product>, created: Option<Product>): (r: seq<Product>)
    ensures created.None? ==> r == products
    ensures created.Some? ==> |r| == |products| + 1 && r[..|products|] == products && r[|products|] == created.value
  {
    match created
    case None => products
    case Some(p) => products + [p]
  }

  /** `updateProduct`: every product with the updated product's id is replaced by it. */
  function UpdateProduct(products: seq<Product>, updated: Product, ok: bool): (r: seq<Product>)
    ensures !ok ==> r == products
    ensures |r| == |products|
    ensures ok ==> forall i :: 0 <= i < |products| && products[i].id == updated.id ==> r[i] == updated
    ensures forall i :: 0 <= i < |products| && products[i].id != updated.id ==> r[i] == products[i]
  {
    if !ok then products else MapWhere(products, (p: Product) => p.id == updated.id, (p: Product) => updated)
  }

  /** Updating keeps the list of ids, and updating twice is updating once. */
  lemma UpdateProductKeepsIds(products: seq<Product>, updated: Product, ok: bool)
    ensures var r := UpdateProduct(products, updated, ok);
      forall i :: 0 <= i < |products| ==> r[i].id == products[i].id
    ensures var r := UpdateProduct(products, updated, ok);
      UpdateProduct(r, updated, ok) == r
  {
    var r := UpdateProduct(products, updated, ok);
    var r2 := UpdateProduct(r, updated, ok);
    assert forall i :: 0 <= i < |r| ==> r2[i] == r[i];
  }

  function HasOtherId(id: string): Product -> bool
  {
    (p: Product) => p.id != id
  }

  /** `deleteProduct`: removes every product with the id, keeping the rest in order. */
  function DeleteProduct(products: seq<Product>, id: string, ok: bool): (r: seq<Product>)
    ensures !ok ==> r == products
    ensures multiset(r) <= multiset(products)
    ensures ok ==> forall i :: 0 <= i < |r| ==> r[i].id != id
    ensures ok ==> |r| == Count(products, HasOtherId(id))
  {
    if !ok then products else Filter(products, HasOtherId(id))
  }

  /** Exactly the products with another id survive a delete, in their order. */
  lemma DeleteProductKeepsOthers(products: seq<Product>, id: string, p: Product)
    ensures p in DeleteProduct(products, id, true) <==> p in products && p.id != id
    ensures IsSubsequence(DeleteProduct(products, id, true), products)
  {
    FilterMembership(products, HasOtherId(id), p);
    FilterIsSubsequence(products, HasOtherId(id));
  }

  /** Deleting a product just added removes it and nothing else. */
  lemma DeleteUndoesAdd(products: seq<Product>, p: Product)
    ensures DeleteProduct(AddProduct(products, Some(p)), p.id, true) == DeleteProduct(products, p.id, true)
  {
    FilterAppend(products, [p], HasOtherId(p.id));
    assert Filter([p], HasOtherId(p.id)) == [];
  }

  /** Deleting an id after updating it is deleting it. */
  lemma DeleteAfterUpdate(products: seq<Product>, updated: Product)
    ensures DeleteProduct(UpdateProduct(products, updated, true), updated.id, true)
         == DeleteProduct(products, updated.id, true)
    decreases |products|
  {
    if |products| > 0 {
      var r := UpdateProduct(products, updated, true);
      assert r[1..] == UpdateProduct(products[1..], updated, true);
      DeleteAfterUpdate(products[1..], updated);
    }
  }

  /** `updateSettings`: whether the save succeeded, and the settings shown afterwards. */
  function UpdateSettings(settings: Settings, newSettings: Settings, ok: bool): (r: (bool, Settings))
    ensures r.0 <==> ok
    ensures r.1 == if ok then newSettings else settings
  {
    if ok then (true, newSettings) else (false, settings)
  }
}

=== FILE: chat_service.dfy ===
/**
 The conversation service (services/chatservice.ts): the pure shaping done
 before each call to the language-model provider, and the fixed strings
 returned instead of the provider's text. The provider itself is a parameter
 `ai`, a function from what it is sent to what it answers; a function whose
 result does not depend on `ai` therefore did not consult the provider.
 */
module ChatService {
  import opened Lists
  import opened Strings
  import opened Types

  /** What one call to the provider yields: its text, or a thrown error. */
  datatype ModelReply = Answered(text: string) | Failed

  /** The two roles of the provider's conversation format. */
  datatype TurnRole = UserTurn | ModelTurn

  datatype Content = Content(role: TurnRole, text: string)

  /**
   The interpolated parts of the system instruction. The surrounding prompt
   wording is not modelled; the art-briefing policy is interpolated twice, once
   with the fallback and once verbatim.
   */
  datatype SystemInstruction = SystemInstruction(
    catalog: string,
    paymentPolicy: string,
    shippingPolicy: string,
    artBriefingPolicy: string,
    artBriefingVerbatim: string)

  /** One chat turn sent to the provider: earlier turns plus the new message. */
  datatype ChatRequest = ChatRequest(instruction: SystemInstruction, history: seq<Content>, message: string)

  const UNPROCESSABLE_REPLY := "Não foi possível processar a última mensagem."
  const CHAT_ERROR_REPLY := "Desculpe, ocorreu um erro ao me comunicar com a IA. Por favor, tente novamente mais tarde."
  const SUMMARY_ERROR_REPLY := "Desculpe, ocorreu um erro ao gerar o resumo do pedido."
  const NO_CHATS_REPLY := "Nenhuma conversa para analisar ainda."
  const ANALYTICS_ERROR_REPLY := "Ocorreu um erro ao analisar os dados das conversas."
  const EMPTY_CATALOG := "Nenhum produto cadastrado ainda."
  const UNDEFINED_POLICY := "Não definida."

  // ---------------------------------------------------------------------------
  // system instruction

  /** The catalog line of one product; `isActive` plays no part. */
  function ProductLine(p: Product): string
  {
    "- **" + p.name + "**: " + p.description
      + " (Tipo: " + p.productType
      + ", Tamanho Padrão: " + p.size
      + ", Qtd. Mínima: " + IntToString(p.quantity)
      + " un., Prazo: " + p.productionTime + ")"
  }

  function ProductLines(products: seq<Product>): (r: seq<string>)
    ensures |r| == |products|
    ensures forall i :: 0 <= i < |r| ==> r[i] == ProductLine(products[i])
  {
    seq(|products|, i requires 0 <= i < |products| => ProductLine(products[i]))
  }

  /** The catalog section: the product lines joined by newlines, or the fallback text. */
  function CatalogSection(products: seq<Product>): (r: string)
    ensures |products| == 0 <==> r == EMPTY_CATALOG
    ensures |products| > 0 ==> r == Join(ProductLines(products), "\n")
  {
    var joined := Join(ProductLines(products), "\n");
    JoinedCatalogShape(products);
    if joined == "" then EMPTY_CATALOG else joined
  }

  /** The joined product lines are empty exactly for an empty catalog, and start with "- **" otherwise. */
  lemma JoinedCatalogShape(products: seq<Product>)
    ensures Join(ProductLines(products), "\n") == "" <==> |products| == 0
    ensures |products| > 0 ==> Join(ProductLines(products), "\n")[0] == '-'
  {
    var lines := ProductLines(products);
    assert forall i :: 0 <= i < |lines| ==> |lines[i]| > 0;
    JoinEmptyIff(lines, "\n");
    if |products| > 0 {
      assert lines[0][0] == '-';
      assert lines[0] <= Join(lines, "\n");
    }
  }

  /** A policy text, or the fallback when it is empty. */
  function PolicyText(policy: string): (r: string)
    ensures r != ""
    ensures policy != "" ==> r == policy
    ensures policy == "" ==> r == UNDEFINED_POLICY
  {
    if policy == "" then UNDEFINED_POLICY else policy
  }

  /**
   `createSystemInstruction`: the catalog (or its fallback) and the three
   policies (each with its fallback), plus the art-briefing policy as written.
   */
  function CreateSystemInstruction(products: seq<Product>, settings: Settings): (r: SystemInstruction)
    ensures r.catalog == CatalogSection(products)
    ensures r.catalog == EMPTY_CATALOG <==> |products| == 0
    ensures |products| > 0 ==> ProductLine(products[0]) <= r.catalog
    ensures r.paymentPolicy != "" && r.shippingPolicy != "" && r.artBriefingPolicy != ""
    ensures settings.paymentPolicy != "" ==> r.paymentPolicy == settings.paymentPolicy
    ensures settings.shippingPolicy != "" ==> r.shippingPolicy == settings.shippingPolicy
    ensures settings.paymentPolicy == "" ==> r.paymentPolicy == UNDEFINED_POLICY
    ensures settings.shippingPolicy == "" ==> r.shippingPolicy == UNDEFINED_POLICY
    ensures settings.artBriefingPolicy == "" ==> r.artBriefingPolicy == UNDEFINED_POLICY
    ensures r.artBriefingVerbatim == settings.artBriefingPolicy
    ensures r.artBriefingVerbatim != "" ==> r.artBriefingPolicy == r.artBriefingVerbatim
  {
    SystemInstruction(
      CatalogSection(products),
      PolicyText(settings.paymentPolicy),
      PolicyText(settings.shippingPolicy),
      PolicyText(settings.artBriefingPolicy),
      settings.artBriefingPolicy)
  }

  /** No field of the product contains a line break. */
  predicate SingleLineProduct(p: Product)
  {
    '\n' !in p.name && '\n' !in p.description && '\n' !in p.productType
    && '\n' !in p.size && '\n' !in p.productionTime
  }

  lemma ProductLineSingleLine(p: Product)
    requires SingleLineProduct(p)
    ensures '\n' !in ProductLine(p)
  {
    var q := IntToString(p.quantity);
    assert forall i :: 0 <= i < |q| ==> q[i] != '\n' by {
      if p.quantity < 0 {
        assert q == "-" + NatToString(-p.quantity);
        assert forall i :: 1 <= i < |q| ==> q[i] == NatToString(-p.quantity)[i - 1];
      }
    }
  }

  /**
   The catalog holds one line per product, in catalog order, whenever the
   product texts themselves are single lines.
   */
  lemma CatalogOneLinePerProduct(products: seq<Product>)
    requires |products| > 0
    requires forall i :: 0 <= i < |products| ==> SingleLineProduct(products[i])
    ensures Split(CatalogSection(products), '\n') == ProductLines(products)
  {
    var lines := ProductLines(products);
    forall i | 0 <= i < |lines|
      ensures '\n' !in lines[i]
    {
      ProductLineSingleLine(products[i]);
    }
    SplitJoin(lines, '\n');
  }

  /** Two catalogs that differ only in the products' active flags. */
  ghost predicate SameExceptActive(ps: seq<Product>, qs: seq<Product>)
  {
    |ps| == |qs| && forall i :: 0 <= i < |ps| ==> ps[i] == qs[i].(isActive := ps[i].isActive)
  }

  /** The active flag does not influence the catalog offered to the assistant. */
  lemma CatalogIgnoresActive(ps: seq<Product>, qs: seq<Product>)
    requires SameExceptActive(ps, qs)
    ensures CatalogSection(ps) == CatalogSection(qs)
  {
    assert ProductLines(ps) == ProductLines(qs) by {
      forall i | 0 <= i < |ps|
        ensures ProductLine(ps[i]) == ProductLine(qs[i])
      {
        assert ps[i] == qs[i].(isActive := ps[i].isActive);
      }
    }
  }

  /** Nor does it influence the system instruction sent with every chat request. */
  lemma InstructionIgnoresActive(ps: seq<Product>, qs: seq<Product>, settings: Settings)
    requires SameExceptActive(ps, qs)
    ensures CreateSystemInstruction(ps, settings) == CreateSystemInstruction(qs, settings)
  {
    CatalogIgnoresActive(ps, qs);
  }

  // ---------------------------------------------------------------------------
  // chat replies

  /** The provider's view of one message: assistant turns are the model's, all others the user's. */
  function ToContent(m: ChatMessage): (r: Content)
    ensures r.text == m.content
    ensures r.role == ModelTurn <==> m.role == Assistant
  {
    Content(if m.role == Assistant then ModelTurn else UserTurn, m.content)
  }

  /** Drops system messages and converts the rest, in order. */
  function ConvertHistory(history: seq<ChatMessage>): (r: seq<Content>)
    ensures |r| <= |history|
    ensures forall i :: 0 <= i < |r| ==> exists j :: 0 <= j < |history| && history[j].role != System && r[i] == ToContent(history[j])
  {
    if |history| == 0 then []
    else if history[0].role == System then ConvertHistory(history[1..])
    else
      var rest := ConvertHistory(history[1..]);
      assert forall i :: 0 <= i < |rest| ==> exists j :: 1 <= j < |history| && history[j].role != System && rest[i] == ToContent(history[j]) by {
        forall i | 0 <= i < |rest|
          ensures exists j :: 1 <= j < |history| && history[j].role != System && rest[i] == ToContent(history[j])
        {
          var k :| 0 <= k < |history[1..]| && history[1..][k].role != System && rest[i] == ToContent(history[1..][k]);
          assert history[k + 1] == history[1..][k];
        }
      }
      [ToContent(history[0])] + rest
  }

  /** Conversion distributes over concatenation of histories. */
  lemma {:induction false} ConvertHistoryAppend(a: seq<ChatMessage>, b: seq<ChatMessage>)
    ensures ConvertHistory(a + b) == ConvertHistory(a) + ConvertHistory(b)
    decreases |a|
  {
    if |a| == 0 {
      assert a + b == b;
    } else {
      assert (a + b)[0] == a[0];
      assert (a + b)[1..] == a[1..] + b;
      ConvertHistoryAppend(a[1..], b);
    }
  }

  /** Without system messages the conversion is one item per message, in order. */
  lemma {:induction false} ConvertHistoryNoSystem(history: seq<ChatMessage>)
    requires forall i :: 0 <= i < |history| ==> history[i].role != System
    ensures |ConvertHistory(history)| == |history|
    ensures forall i :: 0 <= i < |history| ==> ConvertHistory(history)[i] == ToContent(history[i])
    decreases |history|
  {
    if |history| > 0 {
      ConvertHistoryNoSystem(history[1..]);
    }
  }

  /** A history made only of system messages converts to nothing. */
  lemma {:induction false} ConvertHistoryAllSystem(history: seq<ChatMessage>)
    requires forall i :: 0 <= i < |history| ==> history[i].role == System
    ensures ConvertHistory(history) == []
    decreases |history|
  {
    if |history| > 0 {
      ConvertHistoryAllSystem(history[1..]);
    }
  }

  /**
   The request for the provider, or `None` when the converted history is empty
   or does not end with a user turn (the provider is then not called).
   */
  function PrepareChat(history: seq<ChatMessage>, products: seq<Product>, settings: Settings): (r: Option<ChatRequest>)
    ensures r.None? <==> |ConvertHistory(history)| == 0 || ConvertHistory(history)[|ConvertHistory(history)| - 1].role != UserTurn
    ensures r.Some? ==> ConvertHistory(history) == r.value.history + [Content(UserTurn, r.value.message)]
    ensures r.Some? ==> r.value.instruction == CreateSystemInstruction(products, settings)
  {
    var converted := ConvertHistory(history);
    if |converted| == 0 || converted[|converted| - 1].role != UserTurn then None
    else
      var last := converted[|converted| - 1];
      assert converted == converted[..|converted| - 1] + [last];
      Some(ChatRequest(CreateSystemInstruction(products, settings), converted[..|converted| - 1], last.text))
  }

  /** `generateChatResponse`: the assistant's next message for a history. */
  function GenerateChatResponse(history: seq<ChatMessage>, products: seq<Product>, settings: Settings,
                                ai: ChatRequest -> ModelReply): (r: string)
    ensures PrepareChat(history, products, settings).None? ==> r == UNPROCESSABLE_REPLY
    ensures PrepareChat(history, products, settings).Some? ==>
      var reply := ai(PrepareChat(history, products, settings).value);
      r == if reply.Answered? then reply.text else CHAT_ERROR_REPLY
  {
    match PrepareChat(history, products, settings)
    case None => UNPROCESSABLE_REPLY
    case Some(request) =>
      match ai(request)
      case Answered(text) => text
      case Failed => CHAT_ERROR_REPLY
  }

  /** When the guard refuses the history, the provider plays no part in the answer. */
  lemma GuardSkipsProvider(history: seq<ChatMessage>, products: seq<Product>, settings: Settings,
                           ai1: ChatRequest -> ModelReply, ai2: ChatRequest -> ModelReply)
    requires |ConvertHistory(history)| == 0 || ConvertHistory(history)[|ConvertHistory(history)| - 1].role != UserTurn
    ensures GenerateChatResponse(history, products, settings, ai1) == UNPROCESSABLE_REPLY
    ensures GenerateChatResponse(history, products, settings, ai1) == GenerateChatResponse(history, products, settings, ai2)
  {
  }

  /**
   A history that ends with a user message always reaches the provider: the
   request carries the converted earlier turns and that message's text.
   */
  lemma {:induction false} UserLastReachesProvider(earlier: seq<ChatMessage>, content: string, stamp: Option<Timestamp>,
                                                   products: seq<Product>, settings: Settings)
    ensures var h := earlier + [ChatMessage(User, content, stamp)];
      PrepareChat(h, products, settings) == Some(ChatRequest(CreateSystemInstruction(products, settings), ConvertHistory(earlier), content))
  {
    var m := ChatMessage(User, content, stamp);
    ConvertHistoryAppend(earlier, [m]);
    assert ConvertHistory([m]) == [Content(UserTurn, content)];
    var conv := ConvertHistory(earlier + [m]);
    assert conv[..|conv| - 1] == ConvertHistory(earlier);
    assert conv[|conv| - 1] == Content(UserTurn, content);
  }

  // ---------------------------------------------------------------------------
  // order summary

  function SpeakerLabel(role: ChatRole): string
  {
    if role == User then "Cliente" else "Assistente"
  }

  function TranscriptLine(m: ChatMessage): string
  {
    SpeakerLabel(m.role) + ": " + m.content
  }

  function TranscriptLines(history: seq<ChatMessage>): (r: seq<string>)
    ensures |r| == |history|
    ensures forall i :: 0 <= i < |r| ==> r[i] == TranscriptLine(history[i])
  {
    seq(|history|, i requires 0 <= i < |history| => TranscriptLine(history[i]))
  }

  /**
   The conversation text sent to the provider for an order summary: empty
   exactly for an empty history, and starting with the first message's line.
   */
  function Transcript(history: seq<ChatMessage>): (r: string)
    ensures r == "" <==> |history| == 0
    ensures |history| > 0 ==> TranscriptLine(history[0]) <= r
  {
    var lines := TranscriptLines(history);
    assert forall i :: 0 <= i < |lines| ==> |lines[i]| > 0 by {
      forall i | 0 <= i < |lines|
        ensures |lines[i]| > 0
      {
        assert lines[i] == SpeakerLabel(history[i].role) + ": " + history[i].content;
      }
    }
    JoinEmptyIff(lines, "\n");
    Join(lines, "\n")
  }

  /** Customer lines are labelled "Cliente: ", every other role "Assistente: ". */
  lemma TranscriptLabels(m: ChatMessage)
    ensures m.role == User <==> "Cliente: " <= TranscriptLine(m)
    ensures m.role != User <==> "Assistente: " <= TranscriptLine(m)
  {
    var line := TranscriptLine(m);
    if m.role == User {
      assert line[0] == 'C';
      assert !("Assistente: " <= line) by { assert line[0] != 'A'; }
    } else {
      assert line[0] == 'A';
      assert !("Cliente: " <= line) by { assert line[0] != 'C'; }
    }
  }

  /**
   The transcript has one line per message, in order, when the messages
   themselves are single lines.
   */
  lemma TranscriptOneLinePerMessage(history: seq<ChatMessage>)
    requires |history| > 0
    requires forall i :: 0 <= i < |history| ==> '\n' !in history[i].content
    ensures Split(Transcript(history), '\n') == TranscriptLines(history)
  {
    var lines := TranscriptLines(history);
    forall i | 0 <= i < |lines|
      ensures '\n' !in lines[i]
    {
      assert lines[i] == SpeakerLabel(history[i].role) + ": " + history[i].content;
    }
    SplitJoin(lines, '\n');
  }

  /** `generateOrderSummary`: the provider's summary of the transcript, or the fixed apology. */
  function GenerateOrderSummary(history: seq<ChatMessage>, ai: string -> ModelReply): (r: string)
    ensures ai(Transcript(history)).Answered? ==> r == ai(Transcript(history)).text
    ensures ai(Transcript(history)).Failed? ==> r == SUMMARY_ERROR_REPLY
  {
    match ai(Transcript(history))
    case Answered(text) => text
    case Failed => SUMMARY_ERROR_REPLY
  }

  // ---------------------------------------------------------------------------
  // analytics

  /** Contents of the customer messages of one chat, in order. */
  function UserContents(messages: seq<ChatMessage>): (r: seq<string>)
    ensures |r| <= |messages|
  {
    if |messages| == 0 then []
    else (if messages[0].role == User then [messages[0].content] else []) + UserContents(messages[1..])
  }

  /** Contents of all customer messages, chat by chat, as the `flatMap`/`filter`/`map` chain. */
  function AllUserContents(chats: seq<WhatsAppChat>): (r: seq<string>)
    ensures |chats| == 0 ==> r == []
    ensures forall k :: 0 <= k < |r| ==> exists i :: 0 <= i < |chats| && r[k] in UserContents(chats[i].messages)
  {
    if |chats| == 0 then []
    else
      var first := UserContents(chats[0].messages);
      var rest := AllUserContents(chats[1..]);
      assert forall k :: 0 <= k < |rest| ==> exists i :: 0 <= i < |chats| && rest[k] in UserContents(chats[i].messages) by {
        forall k | 0 <= k < |rest|
          ensures exists i :: 0 <= i < |chats| && rest[k] in UserContents(chats[i].messages)
        {
          var i :| 0 <= i < |chats[1..]| && rest[k] in UserContents(chats[1..][i].messages);
          assert chats[i + 1] == chats[1..][i];
        }
      }
      first + rest
  }

  lemma {:induction false} UserContentsMembership(messages: seq<ChatMessage>, x: string)
    ensures x in UserContents(messages) <==> exists j :: 0 <= j < |messages| && messages[j].role == User && messages[j].content == x
    decreases |messages|
  {
    if |messages| > 0 {
      UserContentsMembership(messages[1..], x);
      if x in UserContents(messages[1..]) {
        var j :| 0 <= j < |messages[1..]| && messages[1..][j].role == User && messages[1..][j].content == x;
        assert messages[j + 1] == messages[1..][j];
      }
      if exists j :: 0 <= j < |messages| && messages[j].role == User && messages[j].content == x {
        var j :| 0 <= j < |messages| && messages[j].role == User && messages[j].content == x;
        if j > 0 {
          assert messages[1..][j - 1] == messages[j];
        }
      }
    }
  }

  /** A text is in the analytics input exactly when some chat has a customer message with it. */
  lemma {:induction false} AllUserContentsMembership(chats: seq<WhatsAppChat>, x: string)
    ensures x in AllUserContents(chats) <==>
      exists i, j :: 0 <= i < |chats| && 0 <= j < |chats[i].messages|
        && chats[i].messages[j].role == User && chats[i].messages[j].content == x
    decreases |chats|
  {
    if |chats| > 0 {
      AllUserContentsMembership(chats[1..], x);
      UserContentsMembership(chats[0].messages, x);
      if x in AllUserContents(chats[1..]) {
        var i, j :| 0 <= i < |chats[1..]| && 0 <= j < |chats[1..][i].messages|
          && chats[1..][i].messages[j].role == User && chats[1..][i].messages[j].content == x;
        assert chats[i + 1] == chats[1..][i];
      }
      if exists i, j :: 0 <= i < |chats| && 0 <= j < |chats[i].messages|
          && chats[i].messages[j].role == User && chats[i].messages[j].content == x {
        var i, j :| 0 <= i < |chats| && 0 <= j < |chats[i].messages|
          && chats[i].messages[j].role == User && chats[i].messages[j].content == x;
        if i > 0 {
          assert chats[1..][i - 1] == chats[i];
        }
      }
    }
  }

  /** Message order is kept: the customer texts of two runs of messages come one after the other. */
  lemma {:induction false} UserContentsAppend(a: seq<ChatMessage>, b: seq<ChatMessage>)
    ensures UserContents(a + b) == UserContents(a) + UserContents(b)
    decreases |a|
  {
    if |a| == 0 {
      assert a + b == b;
    } else {
      assert (a + b)[0] == a[0];
      assert (a + b)[1..] == a[1..] + b;
      UserContentsAppend(a[1..], b);
    }
  }

  /** Chat order is kept: the input for two chat lists is the inputs one after the other. */
  lemma {:induction false} AllUserContentsAppend(a: seq<WhatsAppChat>, b: seq<WhatsAppChat>)
    ensures AllUserContents(a + b) == AllUserContents(a) + AllUserContents(b)
    decreases |a|
  {
    if |a| == 0 {
      assert a + b == b;
    } else {
      assert (a + b)[0] == a[0];
      assert (a + b)[1..] == a[1..] + b;
      AllUserContentsAppend(a[1..], b);
    }
  }

  // The `flatMap` / `filter` / `map` chain of the analytics input, step by step,
  // as a reference for `AllUserContents`.

  /** `chats.flatMap(chat => chat.messages)`. */
  function Messages(chats: seq<WhatsAppChat>): seq<ChatMessage>
  {
    if |chats| == 0 then [] else chats[0].messages + Messages(chats[1..])
  }

  function IsCustomer(m: ChatMessage): bool
  {
    m.role == User
  }

  /** `messages.map(message => message.content)`. */
  function Contents(messages: seq<ChatMessage>): (r: seq<string>)
    ensures |r| == |messages|
    ensures forall i :: 0 <= i < |r| ==> r[i] == messages[i].content
  {
    seq(|messages|, i requires 0 <= i < |messages| => messages[i].content)
  }

  lemma ContentsAppend(a: seq<ChatMessage>, b: seq<ChatMessage>)
    ensures Contents(a + b) == Contents(a) + Contents(b)
  {
    var l, r := Contents(a + b), Contents(a) + Contents(b);
    assert forall i :: 0 <= i < |l| ==> l[i] == r[i] by {
      forall i | 0 <= i < |l|
        ensures l[i] == r[i]
      {
        if i < |a| { assert (a + b)[i] == a[i]; } else { assert (a + b)[i] == b[i - |a|]; }
      }
    }
  }

  /** The customer texts of one chat are the contents of its customer messages, in order and with repeats. */
  lemma {:induction false} UserContentsIsFilterMap(messages: seq<ChatMessage>)
    ensures UserContents(messages) == Contents(Filter(messages, IsCustomer))
    decreases |messages|
  {
    if |messages| > 0 {
      UserContentsIsFilterMap(messages[1..]);
      if IsCustomer(messages[0]) {
        ContentsAppend([messages[0]], Filter(messages[1..], IsCustomer));
      }
    }
  }

  /**
   The analytics input is the source's chain: all messages chat by chat, the
   customer ones kept, their contents taken, in order and with repeats.
   */
  lemma {:induction false} AllUserContentsIsFlatMap(chats: seq<WhatsAppChat>)
    ensures AllUserContents(chats) == Contents(Filter(Messages(chats), IsCustomer))
    decreases |chats|
  {
    if |chats| > 0 {
      AllUserContentsIsFlatMap(chats[1..]);
      UserContentsIsFilterMap(chats[0].messages);
      FilterAppend(chats[0].messages, Messages(chats[1..]), IsCustomer);
      ContentsAppend(Filter(chats[0].messages, IsCustomer), Filter(Messages(chats[1..]), IsCustomer));
    }
  }

  /** The separator line between two customer texts of the analytics input. */
  const ANALYTICS_SEPARATOR := "\n---\n"

  /** The customer messages of all chats, joined by a dashed separator line. */
  function AnalyticsPrompt(chats: seq<WhatsAppChat>): (r: string)
    ensures |AllUserContents(chats)| == 0 ==> r == ""
    ensures |AllUserContents(chats)| == 1 ==> r == AllUserContents(chats)[0]
    ensures |AllUserContents(chats)| > 1 ==>
      var texts := AllUserContents(chats);
      r == texts[0] + ANALYTICS_SEPARATOR + Join(texts[1..], ANALYTICS_SEPARATOR)
    ensures |AllUserContents(chats)| > 0 ==>
      |r| == TotalLength(AllUserContents(chats)) + (|AllUserContents(chats)| - 1) * |ANALYTICS_SEPARATOR|
  {
    Join(AllUserContents(chats), ANALYTICS_SEPARATOR)
  }

  /**
   The input for two chat lists that both have customer texts is the two
   inputs with one separator line between them.
   */
  lemma AnalyticsPromptAppend(a: seq<WhatsAppChat>, b: seq<WhatsAppChat>)
    requires |AllUserContents(a)| > 0 && |AllUserContents(b)| > 0
    ensures AnalyticsPrompt(a + b) == AnalyticsPrompt(a) + ANALYTICS_SEPARATOR + AnalyticsPrompt(b)
  {
    AllUserContentsAppend(a, b);
    JoinAppend(AllUserContents(a), AllUserContents(b), ANALYTICS_SEPARATOR);
  }

  /** `generateAnalyticsInsights`: refuses an empty chat list without calling the provider. */
  function GenerateAnalyticsInsights(chats: seq<WhatsAppChat>, ai: string -> ModelReply): (r: string)
    ensures |chats| == 0 ==> r == NO_CHATS_REPLY
    ensures |chats| > 0 && ai(AnalyticsPrompt(chats)).Answered? ==> r == ai(AnalyticsPrompt(chats)).text
    ensures |chats| > 0 && ai(AnalyticsPrompt(chats)).Failed? ==> r == ANALYTICS_ERROR_REPLY
  {
    if |chats| == 0 then NO_CHATS_REPLY
    else
      match ai(AnalyticsPrompt(chats))
      case Answered(text) => text
      case Failed => ANALYTICS_ERROR_REPLY
  }

  /** With no chats the answer is fixed whatever the provider would say. */
  lemma AnalyticsEmptySkipsProvider(ai1: string -> ModelReply, ai2: string -> ModelReply)
    ensures GenerateAnalyticsInsights([], ai1) == GenerateAnalyticsInsights([], ai2) == NO_CHATS_REPLY
  {
  }
}

=== FILE: inbox.dfy ===
/**
 The dashboard's chat inbox (components/WhatsApp.tsx). Each handler is one
 atomic step on the client's state; the outcome of its request to the server
 (`serverOk`, or the summary the server returned) is a parameter, and the
 request itself is part of the result so that it can be compared with the
 server route that receives it.
 */
module Inbox {
  import opened Lists
  import opened Strings
  import opened Types
  import Server
  import ChatService

  // ---------------------------------------------------------------------------
  // ordering and selection

  /** Most recent activity first. */
  ghost predicate SortedByRecency(s: seq<WhatsAppChat>)
  {
    forall i, j :: 0 <= i < j < |s| ==> s[i].lastMessageTimestamp >= s[j].lastMessageTimestamp
  }

  /** A chat no older than any chat of a sorted list can head it. */
  lemma ConsSorted(x: WhatsAppChat, s: seq<WhatsAppChat>)
    requires SortedByRecency(s)
    requires forall j :: 0 <= j < |s| ==> s[j].lastMessageTimestamp <= x.lastMessageTimestamp
    ensures SortedByRecency([x] + s)
  {
    var r := [x] + s;
    forall i, j | 0 <= i < j < |r|
      ensures r[i].lastMessageTimestamp >= r[j].lastMessageTimestamp
    {
      assert r[j] == s[j - 1];
      if i > 0 {
        assert r[i] == s[i - 1];
      }
    }
  }

  /** Puts `c` before the first chat that is not more recent than it. */
  function InsertByRecency(c: WhatsAppChat, sorted: seq<WhatsAppChat>): (r: seq<WhatsAppChat>)
    requires SortedByRecency(sorted)
    ensures |r| == |sorted| + 1
    ensures forall j :: 0 <= j < |r| ==> r[j] == c || r[j] in sorted
    ensures multiset(r) == multiset(sorted) + multiset{c}
    ensures SortedByRecency(r)
  {
    if |sorted| == 0 then [c]
    else if sorted[0].lastMessageTimestamp <= c.lastMessageTimestamp then
      ConsSorted(c, sorted);
      [c] + sorted
    else
      var rest := InsertByRecency(c, sorted[1..]);
      assert sorted == [sorted[0]] + sorted[1..];
      assert forall j :: 0 <= j < |rest| ==> rest[j].lastMessageTimestamp <= sorted[0].lastMessageTimestamp by {
        forall j | 0 <= j < |rest|
          ensures rest[j].lastMessageTimestamp <= sorted[0].lastMessageTimestamp
        {
          if rest[j] != c {
            var k :| 0 <= k < |sorted[1..]| && sorted[1..][k] == rest[j];
            assert sorted[k + 1] == rest[j];
          }
        }
      }
      ConsSorted(sorted[0], rest);
      [sorted[0]] + rest
  }

  /**
   `sortedChats`: the chats by non-increasing last-message time. Chats with the
   same time keep their relative order, as in the stable `Array.prototype.sort`.
   */
  function SortByRecency(chats: seq<WhatsAppChat>): (r: seq<WhatsAppChat>)
    ensures |r| == |chats|
    ensures multiset(r) == multiset(chats)
    ensures SortedByRecency(r)
  {
    if |chats| == 0 then []
    else
      assert chats == [chats[0]] + chats[1..];
      InsertByRecency(chats[0], SortByRecency(chats[1..]))
  }

  /** The sorted list has the same length as the chat list, and its head is a most recent chat. */
  lemma SortedHeadIsMostRecent(chats: seq<WhatsAppChat>)
    requires |chats| > 0
    ensures |SortByRecency(chats)| == |chats|
    ensures SortByRecency(chats)[0] in chats
    ensures forall c :: c in chats ==> SortByRecency(chats)[0].lastMessageTimestamp >= c.lastMessageTimestamp
  {
    var r := SortByRecency(chats);
    assert |multiset(r)| == |multiset(chats)|;
    assert r[0] in multiset(r);
    forall c | c in chats
      ensures r[0].lastMessageTimestamp >= c.lastMessageTimestamp
    {
      assert c in multiset(chats);
      var j :| 0 <= j < |r| && r[j] == c;
      if j > 0 {
        assert r[0].lastMessageTimestamp >= r[j].lastMessageTimestamp;
      }
    }
  }

  /** `chats[k]` is the first chat, in list order, with the latest last-message time. */
  ghost predicate FirstMostRecent(chats: seq<WhatsAppChat>, k: int)
  {
    && 0 <= k < |chats|
    && (forall j :: 0 <= j < |chats| ==> chats[j].lastMessageTimestamp <= chats[k].lastMessageTimestamp)
    && (forall j :: 0 <= j < k ==> chats[j].lastMessageTimestamp < chats[k].lastMessageTimestamp)
  }

  /**
   The stable sort puts the first most recent chat at the head: among chats
   with the latest time, the one earliest in the list wins.
   */
  lemma {:induction false} SortedHeadIsFirstMostRecent(chats: seq<WhatsAppChat>)
    requires |chats| > 0
    ensures exists k :: FirstMostRecent(chats, k) && SortByRecency(chats)[0] == chats[k]
    decreases |chats|
  {
    var rest := chats[1..];
    if |rest| == 0 {
      assert FirstMostRecent(chats, 0);
    } else {
      SortedHeadIsFirstMostRecent(rest);
      var k' :| FirstMostRecent(rest, k') && SortByRecency(rest)[0] == rest[k'];
      var sorted := SortByRecency(rest);
      if sorted[0].lastMessageTimestamp <= chats[0].lastMessageTimestamp {
        assert SortByRecency(chats)[0] == chats[0];
        forall j | 0 <= j < |chats|
          ensures chats[j].lastMessageTimestamp <= chats[0].lastMessageTimestamp
        {
          if j > 0 { assert chats[j] == rest[j - 1]; }
        }
        assert FirstMostRecent(chats, 0);
      } else {
        assert SortByRecency(chats)[0] == chats[k' + 1];
        forall j | 0 <= j < |chats|
          ensures chats[j].lastMessageTimestamp <= chats[k' + 1].lastMessageTimestamp
          ensures j < k' + 1 ==> chats[j].lastMessageTimestamp < chats[k' + 1].lastMessageTimestamp
        {
          if j > 0 { assert chats[j] == rest[j - 1]; }
        }
        assert FirstMostRecent(chats, k' + 1);
      }
    }
  }

  /** JavaScript truthiness of the selected id: none and the empty id both count as no selection. */
  predicate NothingSelected(selectedId: Option<string>)
  {
    selectedId.None? || selectedId.value == ""
  }

  /** The effect that selects the most recent chat when nothing is selected. */
  function AutoSelect(chats: seq<WhatsAppChat>, selectedId: Option<string>): (r: Option<string>)
    ensures !NothingSelected(selectedId) || |chats| == 0 ==> r == selectedId
    ensures NothingSelected(selectedId) && |chats| > 0 ==>
      r.Some? && exists k :: FirstMostRecent(chats, k) && r.value == chats[k].id
  {
    var sorted := SortByRecency(chats);
    if NothingSelected(selectedId) && |sorted| > 0 then
      SortedHeadIsFirstMostRecent(chats);
      Some(sorted[0].id)
    else
      selectedId
  }

  /** `selectedChat`: the first chat with the selected id. */
  function SelectedChat(chats: seq<WhatsAppChat>, selectedId: Option<string>): (r: Option<nat>)
    ensures r.Some? ==> selectedId.Some? && r.value < |chats| && chats[r.value].id == selectedId.value
    ensures r.Some? ==> forall j :: 0 <= j < r.value ==> chats[j].id != selectedId.value
    ensures r.None? <==> selectedId.None? || forall j :: 0 <= j < |chats| ==> chats[j].id != selectedId.value
  {
    if selectedId.None? then None else FindChat(chats, selectedId.value)
  }

  // ---------------------------------------------------------------------------
  // sending a message

  /** Body of the POST /chats/:id/message request. */
  datatype MessageRequest = MessageRequest(chatId: string, content: string, role: ChatRole)

  /** Chat list and input box after a send, and the request made, if any. */
  datatype SendOutcome = SendOutcome(chats: seq<WhatsAppChat>, input: string, request: Option<MessageRequest>)

  /** The optimistic update: `m` appended to every chat with the id, which becomes its latest activity. */
  function AppendOptimistic(chats: seq<WhatsAppChat>, id: string, m: ChatMessage, at: Timestamp): (r: seq<WhatsAppChat>)
    ensures |r| == |chats|
    ensures forall j :: 0 <= j < |chats| && chats[j].id == id ==>
      r[j] == chats[j].(messages := chats[j].messages + [m], lastMessageTimestamp := at)
    ensures forall j :: 0 <= j < |chats| && chats[j].id != id ==> r[j] == chats[j]
  {
    MapWhere(chats, (c: WhatsAppChat) => c.id == id,
             (c: WhatsAppChat) => c.(messages := c.messages + [m], lastMessageTimestamp := at))
  }

  /**
   `handleSendMessage`: a blank input or no selected chat does nothing.
   Otherwise the text goes as the customer's message when the chat's AI is on
   and as the operator's (assistant) message when it is off; the list shows it
   at once, the input is cleared, and a failed request restores the list.
   */
  function SendMessage(chats: seq<WhatsAppChat>, selectedId: Option<string>, input: string,
                       now: Timestamp, serverOk: bool): (r: SendOutcome)
    ensures (forall k :: 0 <= k < |input| ==> IsSpace(input[k])) || SelectedChat(chats, selectedId).None? ==>
      r == SendOutcome(chats, input, None)
    ensures (exists k :: 0 <= k < |input| && !IsSpace(input[k])) && SelectedChat(chats, selectedId).Some? ==>
      var chat := chats[SelectedChat(chats, selectedId).value];
      var role := if chat.isAiActive then User else Assistant;
      && r.request == Some(MessageRequest(chat.id, input, role))
      && r.input == ""
      && (serverOk ==> r.chats == AppendOptimistic(chats, chat.id, ChatMessage(role, input, Some(now)), now))
      && (!serverOk ==> r.chats == chats)
  {
    var sel := SelectedChat(chats, selectedId);
    if Trim(input) == "" || sel.None? then SendOutcome(chats, input, None)
    else
      var chat := chats[sel.value];
      var role := if chat.isAiActive then User else Assistant;
      var m := ChatMessage(role, input, Some(now));
      var optimistic := AppendOptimistic(chats, selectedId.value, m, now);
      SendOutcome(if serverOk then optimistic else chats, "", Some(MessageRequest(selectedId.value, input, role)))
  }

  /**
   With the AI off the server adds nothing beyond the operator's message, so
   the optimistic list is what the server ends with, given one chat per id and
   the server stamping the message with the client's clock reading.
   */
  lemma ManualSendMatchesServer(chats: seq<WhatsAppChat>, selectedId: Option<string>, input: string, now: Timestamp,
                                products: seq<Product>, settings: Settings, ai: ChatService.ChatRequest -> ChatService.ModelReply,
                                answeredAt: Timestamp, touchedAt: Timestamp)
    requires forall i, j :: 0 <= i < j < |chats| ==> chats[i].id != chats[j].id
    requires exists k :: 0 <= k < |input| && !IsSpace(input[k])
    requires SelectedChat(chats, selectedId).Some? && !chats[SelectedChat(chats, selectedId).value].isAiActive
    ensures var r := SendMessage(chats, selectedId, input, now, true);
      var req := r.request.value;
      Server.ChatsAfter(chats, Server.PostMessage(chats, req.chatId, req.content, req.role, products, settings, ai, now, answeredAt, touchedAt))
        == r.chats
  {
    var i := SelectedChat(chats, selectedId).value;
    var r := SendMessage(chats, selectedId, input, now, true);
    var u := Server.PostMessage(chats, chats[i].id, input, Assistant, products, settings, ai, now, answeredAt, touchedAt);
    assert FindChat(chats, chats[i].id) == Some(i);
    assert u.chats == r.chats;
  }

  // ---------------------------------------------------------------------------
  // toggling the AI

  /** Chat list after a toggle, and the flag sent to the server, if a request was made. */
  datatype ToggleOutcome = ToggleOutcome(chats: seq<WhatsAppChat>, request: Option<bool>)

  /** The optimistic update: the flag of every chat with the id negated. */
  function FlipAi(chats: seq<WhatsAppChat>, id: string): (r: seq<WhatsAppChat>)
    ensures |r| == |chats|
    ensures forall j :: 0 <= j < |chats| && chats[j].id == id ==> r[j] == chats[j].(isAiActive := !chats[j].isAiActive)
    ensures forall j :: 0 <= j < |chats| && chats[j].id != id ==> r[j] == chats[j]
  {
    MapWhere(chats, (c: WhatsAppChat) => c.id == id, (c: WhatsAppChat) => c.(isAiActive := !c.isAiActive))
  }

  /** Flipping twice restores the list. */
  lemma FlipAiInvolution(chats: seq<WhatsAppChat>, id: string)
    ensures FlipAi(FlipAi(chats, id), id) == chats
  {
    var once := FlipAi(chats, id);
    var twice := FlipAi(once, id);
    assert forall j :: 0 <= j < |chats| ==> twice[j] == chats[j];
  }

  /**
   `handleToggleAI`: flips the flag at once and asks the server to set the
   negation of the first matching chat's original flag; a failed request
   restores the list. Without a matching chat no request is made.
   */
  function ToggleAi(chats: seq<WhatsAppChat>, chatId: string, serverOk: bool): (r: ToggleOutcome)
    ensures FindChat(chats, chatId).None? ==> r == ToggleOutcome(chats, None)
    ensures FindChat(chats, chatId).Some? ==>
      && r.request == Some(!chats[FindChat(chats, chatId).value].isAiActive)
      && (serverOk ==> r.chats == FlipAi(chats, chatId))
      && (!serverOk ==> r.chats == chats)
  {
    var flipped := FlipAi(chats, chatId);
    match FindChat(chats, chatId)
    case None =>
      MapWhereNoMatch(chats, (c: WhatsAppChat) => c.id == chatId, (c: WhatsAppChat) => c.(isAiActive := !c.isAiActive));
      ToggleOutcome(flipped, None)
    case Some(i) =>
      ToggleOutcome(if serverOk then flipped else chats, Some(!chats[i].isAiActive))
  }

  /** With one chat per id, the optimistic flip is what the server's toggle route produces. */
  lemma ToggleMatchesServer(chats: seq<WhatsAppChat>, chatId: string)
    requires forall i, j :: 0 <= i < j < |chats| ==> chats[i].id != chats[j].id
    requires FindChat(chats, chatId).Some?
    ensures var r := ToggleAi(chats, chatId, true);
      Server.ChatsAfter(chats, Server.ToggleAi(chats, chatId, r.request.value)) == r.chats
  {
    var i := FindChat(chats, chatId).value;
    var r := ToggleAi(chats, chatId, true);
    var u := Server.ToggleAi(chats, chatId, r.request.value);
    assert forall j :: 0 <= j < |chats| ==> u.chats[j] == r.chats[j];
  }

  // ---------------------------------------------------------------------------
  // reports

  /** Replaces every `<` by `&lt;` and then every `>` by `&gt;`, as the report page does. */
  function EscapeAngles(s: string): (r: string)
    ensures '<' !in r && '>' !in r
  {
    ReplaceChar(ReplaceChar(s, '<', "&lt;"), '>', "&gt;")
  }

  /** The escape of one character. */
  function EscapeChar(c: char): string
  {
    if c == '<' then "&lt;" else if c == '>' then "&gt;" else [c]
  }

  /** Character-by-character reference: every character but `<` and `>` is kept, in order. */
  function EscapeEach(s: string): string
  {
    if |s| == 0 then "" else EscapeChar(s[0]) + EscapeEach(s[1..])
  }

  /** The two global replacements are the same as escaping each character on its own. */
  lemma {:induction false} EscapeAnglesPerChar(s: string)
    ensures EscapeAngles(s) == EscapeEach(s)
    decreases |s|
  {
    if |s| > 0 {
      EscapeAnglesPerChar(s[1..]);
      var head := if s[0] == '<' then "&lt;" else [s[0]];
      var once := ReplaceChar(s, '<', "&lt;");
      assert once == head + ReplaceChar(s[1..], '<', "&lt;");
      ReplaceCharAppend(head, ReplaceChar(s[1..], '<', "&lt;"), '>', "&gt;");
      if s[0] == '<' {
        ReplaceCharAbsent("&lt;", '>', "&gt;");
      } else {
        assert ReplaceChar(head, '>', "&gt;") == EscapeChar(s[0]) by {
          assert head[1..] == [];
        }
      }
    }
  }

  /** Text without angle brackets is shown as it is. */
  lemma EscapeAnglesPlain(s: string)
    requires '<' !in s && '>' !in s
    ensures EscapeAngles(s) == s
  {
    ReplaceCharAbsent(s, '<', "&lt;");
    ReplaceCharAbsent(s, '>', "&gt;");
  }

  /** Report list and flags after `handleGenerateReport`, and the escaped summary shown, if any. */
  datatype ReportOutcome = ReportOutcome(reports: seq<Report>, generating: bool, requested: bool, shown: Option<string>)

  /** Whether the report button acts: a chat is selected, it has messages, and no report is under way. */
  predicate CanGenerateReport(chats: seq<WhatsAppChat>, selectedId: Option<string>, generating: bool)
  {
    SelectedChat(chats, selectedId).Some? && |chats[SelectedChat(chats, selectedId).value].messages| > 0 && !generating
  }

  /**
   `handleGenerateReport`: `summary` is what the server's report route answered
   (`None` for a failed request). The report id (`idIso`) and its date
   (`generatedIso`) are two separate clock readings as ISO text.
   */
  function GenerateReport(chats: seq<WhatsAppChat>, selectedId: Option<string>, reports: seq<Report>,
                          generating: bool, summary: Option<string>, idIso: string, generatedIso: string): (r: ReportOutcome)
    ensures !CanGenerateReport(chats, selectedId, generating) ==> r == ReportOutcome(reports, generating, false, None)
    ensures CanGenerateReport(chats, selectedId, generating) ==> r.requested && !r.generating
    ensures CanGenerateReport(chats, selectedId, generating) && summary.None? ==> r.reports == reports && r.shown.None?
    ensures CanGenerateReport(chats, selectedId, generating) && summary.Some? ==>
      var chat := chats[SelectedChat(chats, selectedId).value];
      && |r.reports| == |reports| + 1 && r.reports[1..] == reports
      && r.reports[0] == Report(idIso, chat.id, chat.contact.name, generatedIso, summary.value)
      && r.shown == Some(EscapeAngles(summary.value))
  {
    if !CanGenerateReport(chats, selectedId, generating) then ReportOutcome(reports, generating, false, None)
    else
      var chat := chats[SelectedChat(chats, selectedId).value];
      match summary
      case None => ReportOutcome(reports, false, true, None)
      case Some(text) =>
        var report := Report(idIso, chat.id, chat.contact.name, generatedIso, text);
        ReportOutcome([report] + reports, false, true, Some(EscapeAngles(text)))
  }

  /**
   When the summary is the server's answer to the report route for the selected
   chat, and the server holds the same chat list, the new report carries the
   order summary of that chat's messages and the escaped summary is shown.
   */
  lemma ReportMatchesServer(chats: seq<WhatsAppChat>, selectedId: Option<string>, reports: seq<Report>,
                            generating: bool, ai: string -> ChatService.ModelReply, idIso: string, generatedIso: string)
    requires CanGenerateReport(chats, selectedId, generating)
    ensures Server.ReportSummary(chats, selectedId.value, ai).Summary?
    ensures var chat := chats[SelectedChat(chats, selectedId).value];
      var summary := ChatService.GenerateOrderSummary(chat.messages, ai);
      var r := GenerateReport(chats, selectedId, reports, generating,
                              Some(Server.ReportSummary(chats, selectedId.value, ai).text), idIso, generatedIso);
      && r.reports[0] == Report(idIso, chat.id, chat.contact.name, generatedIso, summary)
      && r.shown == Some(EscapeAngles(summary))
  {
  }

  // ---------------------------------------------------------------------------
  // new chat form

  /** `NewChatForm` submits the untrimmed texts only when neither is blank. */
  function NewChatSubmission(contactName: string, initialMessage: string): (r: Option<(string, string)>)
    ensures r.Some? <==>
      (exists k :: 0 <= k < |contactName| && !IsSpace(contactName[k]))
      && (exists k :: 0 <= k < |initialMessage| && !IsSpace(initialMessage[k]))
    ensures r.Some? ==> r.value == (contactName, initialMessage)
  {
    if Trim(contactName) == "" || Trim(initialMessage) == "" then None else Some((contactName, initialMessage))
  }

  /** A text padded with white space has a non-space character exactly when the text has one. */
  lemma {:induction false} PaddingKeepsNonSpace(s: string, pad: string)
    requires forall k :: 0 <= k < |pad| ==> IsSpace(pad[k])
    ensures (exists k :: 0 <= k < |pad + s + pad| && !IsSpace((pad + s + pad)[k]))
        <==> (exists k :: 0 <= k < |s| && !IsSpace(s[k]))
  {
    var t := pad + s + pad;
    forall k | 0 <= k < |t| && (k < |pad| || |pad| + |s| <= k)
      ensures IsSpace(t[k])
    {
      if k < |pad| {
        assert t[k] == pad[k];
      } else {
        assert t[k] == pad[k - |pad| - |s|];
      }
    }
    if exists k :: 0 <= k < |t| && !IsSpace(t[k]) {
      var k :| 0 <= k < |t| && !IsSpace(t[k]);
      assert t[k] == s[k - |pad|];
    }
    if exists k :: 0 <= k < |s| && !IsSpace(s[k]) {
      var k :| 0 <= k < |s| && !IsSpace(s[k]);
      assert t[k + |pad|] == s[k];
    }
  }

  /**
   White space around either text never decides whether the form submits, and
   the padding is submitted with the text.
   */
  lemma NewChatSubmissionIgnoresPadding(contactName: string, initialMessage: string, pad: string)
    requires forall k :: 0 <= k < |pad| ==> IsSpace(pad[k])
    ensures NewChatSubmission(pad + contactName + pad, initialMessage).Some?
        <==> NewChatSubmission(contactName, initialMessage).Some?
    ensures NewChatSubmission(contactName, pad + initialMessage + pad).Some?
        <==> NewChatSubmission(contactName, initialMessage).Some?
    ensures NewChatSubmission(pad + contactName + pad, initialMessage).Some? ==>
      NewChatSubmission(pad + contactName + pad, initialMessage).value.0 == pad + contactName + pad
  {
    PaddingKeepsNonSpace(contactName, pad);
    PaddingKeepsNonSpace(initialMessage, pad);
  }
}

=== FILE: lists.dfy ===
/**
 Generic sequence operations that the dashboard and the server apply to their
 record lists: JavaScript's `Array.prototype.find`/`findIndex`, `filter`, and the
 "map, replacing the elements that match" idiom used for every in-place update.
 */
module Lists {

  datatype Option<+T> = None | Some(value: T)

  /** `r` can be obtained from `s` by deleting elements, keeping the order. */
  ghost predicate IsSubsequence<T>(r: seq<T>, s: seq<T>)
    decreases |s|
  {
    if |r| == 0 then true
    else if |s| == 0 then false
    else (r[0] == s[0] && IsSubsequence(r[1..], s[1..])) || IsSubsequence(r, s[1..])
  }

  /** Number of elements of `s` satisfying `p`. */
  function Count<T>(s: seq<T>, p: T -> bool): nat
  {
    if |s| == 0 then 0 else (if p(s[0]) then 1 else 0) + Count(s[1..], p)
  }

  /** Index of the first element satisfying `p`, as `findIndex`; `None` plays -1. */
  function FirstIndex<T>(s: seq<T>, p: T -> bool): (r: Option<nat>)
    ensures r.Some? ==> r.value < |s| && p(s[r.value])
    ensures r.Some? ==> forall j :: 0 <= j < r.value ==> !p(s[j])
    ensures r.None? <==> forall j :: 0 <= j < |s| ==> !p(s[j])
  {
    if |s| == 0 then None
    else if p(s[0]) then Some(0)
    else match FirstIndex(s[1..], p)
      case None => None
      case Some(k) => Some(k + 1)
  }

  /** `Array.prototype.filter`: keeps, in order, the elements satisfying `keep`. */
  function Filter<T>(s: seq<T>, keep: T -> bool): (r: seq<T>)
    ensures |r| == Count(s, keep)
    ensures forall i :: 0 <= i < |r| ==> keep(r[i])
    ensures multiset(r) <= multiset(s)
  {
    if |s| == 0 then []
    else
      assert s == [s[0]] + s[1..];
      if keep(s[0]) then [s[0]] + Filter(s[1..], keep)
    else Filter(s[1..], keep)
  }

  lemma {:induction false} FilterIsSubsequence<T>(s: seq<T>, keep: T -> bool)
    ensures IsSubsequence(Filter(s, keep), s)
    decreases |s|
  {
    if |s| == 0 {
    } else {
      FilterIsSubsequence(s[1..], keep);
      var rest := Filter(s[1..], keep);
      if keep(s[0]) {
        assert Filter(s, keep)[1..] == rest;
      } else {
        SubsequenceDropHead(rest, s);
      }
    }
  }

  /** A subsequence of `s[1..]` is a subsequence of `s`. */
  lemma {:induction false} SubsequenceDropHead<T>(r: seq<T>, s: seq<T>)
    requires |s| > 0
    requires IsSubsequence(r, s[1..])
    ensures IsSubsequence(r, s)
  {
  }

  /** An element of `s` survives the filter exactly when it satisfies `keep`. */
  lemma {:induction false} FilterMembership<T>(s: seq<T>, keep: T -> bool, x: T)
    ensures x in Filter(s, keep) <==> x in s && keep(x)
    decreases |s|
  {
    if |s| > 0 {
      FilterMembership(s[1..], keep, x);
      assert x in s <==> x == s[0] || x in s[1..];
    }
  }

  /** Filtering with a predicate every element satisfies returns the sequence itself. */
  lemma {:induction false} FilterAllKept<T>(s: seq<T>, keep: T -> bool)
    requires forall i :: 0 <= i < |s| ==> keep(s[i])
    ensures Filter(s, keep) == s
    decreases |s|
  {
    if |s| > 0 {
      FilterAllKept(s[1..], keep);
    }
  }

  /** Filtering twice with the same predicate is filtering once. */
  lemma {:induction false} FilterIdempotent<T>(s: seq<T>, keep: T -> bool)
    ensures Filter(Filter(s, keep), keep) == Filter(s, keep)
  {
    FilterAllKept(Filter(s, keep), keep);
  }

  /** Filtering distributes over concatenation. */
  lemma {:induction false} FilterAppend<T>(a: seq<T>, b: seq<T>, keep: T -> bool)
    ensures Filter(a + b, keep) == Filter(a, keep) + Filter(b, keep)
    decreases |a|
  {
    if |a| > 0 {
      assert (a + b)[1..] == a[1..] + b;
      assert (a + b)[0] == a[0];
      FilterAppend(a[1..], b, keep);
      if keep(a[0]) {
        calc {
          Filter(a + b, keep);
          [a[0]] + Filter(a[1..] + b, keep);
          [a[0]] + (Filter(a[1..], keep) + Filter(b, keep));
          ([a[0]] + Filter(a[1..], keep)) + Filter(b, keep);
        }
      }
    } else {
      assert a + b == b;
    }
  }

  /**
   The `list.map(x => match(x) ? f(x) : x)` idiom: every matching element is
   replaced by its image under `f`, every other element is kept in place.
   */
  function MapWhere<T>(s: seq<T>, hit: T -> bool, f: T -> T): (r: seq<T>)
    ensures |r| == |s|
    ensures forall i :: 0 <= i < |s| && hit(s[i]) ==> r[i] == f(s[i])
    ensures forall i :: 0 <= i < |s| && !hit(s[i]) ==> r[i] == s[i]
  {
    if |s| == 0 then []
    else [if hit(s[0]) then f(s[0]) else s[0]] + MapWhere(s[1..], hit, f)
  }

  /** When nothing matches, the mapped list is the original list. */
  lemma MapWhereNoMatch<T>(s: seq<T>, hit: T -> bool, f: T -> T)
    requires forall i :: 0 <= i < |s| ==> !hit(s[i])
    ensures MapWhere(s, hit, f) == s
  {
    var r := MapWhere(s, hit, f);
    assert forall i :: 0 <= i < |s| ==> r[i] == s[i];
  }
}

=== FILE: reports.dfy ===
/**
 The report list on the dashboard (components/reports.tsx): deleting a
 report after the user confirms, with the spinner id reset afterwards.
 */
module Reports {
  import opened Lists
  import opened Types

  /** The report list and the id whose deletion is under way, if any. */
  datatype ReportsView = ReportsView(reports: seq<Report>, deletingId: Option<string>)

  /** The view after `handleDelete`, and whether a DELETE request was made. */
  datatype DeleteOutcome = DeleteOutcome(view: ReportsView, requested: bool)

  function HasOtherReportId(id: string): Report -> bool
  {
    (r: Report) => r.id != id
  }

  /**
   `handleDelete(reportId)`: nothing without confirmation; otherwise one request,
   every report with the id removed when it succeeds, and no deletion under way
   afterwards whatever the outcome.
   */
  function HandleDelete(view: ReportsView, reportId: string, confirmed: bool, ok: bool): (r: DeleteOutcome)
    ensures !confirmed ==> r == DeleteOutcome(view, false)
    ensures confirmed ==> r.requested && r.view.deletingId.None?
    ensures confirmed && !ok ==> r.view.reports == view.reports
    ensures confirmed && ok ==> forall i :: 0 <= i < |r.view.reports| ==> r.view.reports[i].id != reportId
    ensures confirmed && ok ==> |r.view.reports| == Count(view.reports, HasOtherReportId(reportId))
  {
    if !confirmed then DeleteOutcome(view, false)
    else
      var kept := if ok then Filter(view.reports, HasOtherReportId(reportId)) else view.reports;
      DeleteOutcome(ReportsView(kept, None), true)
  }

  /** A successful delete keeps exactly the reports with another id, in their order. */
  lemma DeleteKeepsOthers(view: ReportsView, reportId: string, x: Report)
    ensures var kept := HandleDelete(view, reportId, true, true).view.reports;
      (x in kept <==> x in view.reports && x.id != reportId) && IsSubsequence(kept, view.reports)
  {
    FilterMembership(view.reports, HasOtherReportId(reportId), x);
    FilterIsSubsequence(view.reports, HasOtherReportId(reportId));
  }

  /** Deleting the same report again changes nothing more. */
  lemma DeleteIdempotent(view: ReportsView, reportId: string)
    ensures var once := HandleDelete(view, reportId, true, true).view;
      HandleDelete(once, reportId, true, true).view == once
  {
    FilterIdempotent(view.reports, HasOtherReportId(reportId));
  }
}

=== FILE: server.dfy ===
/**
 The chat routes of the HTTP API (index.ts) as transitions on the server's
 chat list. Every `new Date()` of a route is a clock reading of its own, and
 each is a parameter named after what it stamps. The broadcast that follows
 every change is the new list itself.
 */
module Server {
  import opened Lists
  import opened Strings
  import opened Types
  import opened ChatService

  /** A route that acts on one chat: the new list and the chat it answers with, or 404. */
  datatype ChatUpdate = Updated(chats: seq<WhatsAppChat>, chat: WhatsAppChat) | ChatNotFound

  /** The chat list after a route: a 404 leaves it as it was. */
  function ChatsAfter(chats: seq<WhatsAppChat>, u: ChatUpdate): seq<WhatsAppChat>
  {
    if u.Updated? then u.chats else chats
  }

  function ChatIdAt(t: Timestamp): string
  {
    "chat_" + NatToString(t)
  }

  /**
   POST /chats: a new AI-active chat holding the customer's first message and
   the assistant's answer to it, put at the head of the list. The clock is read
   for the chat id (`idAt`), the contact id (`contactAt`), the first message
   (`sentAt`), the answer (`answeredAt`) and the final activity time
   (`touchedAt`); the reading taken for the activity time before the provider
   call is overwritten by the last one and is not a parameter.
   */
  function CreateChat(chats: seq<WhatsAppChat>, contactName: string, initialMessage: string,
                      products: seq<Product>, settings: Settings, ai: ChatRequest -> ModelReply,
                      idAt: Timestamp, contactAt: Timestamp, sentAt: Timestamp,
                      answeredAt: Timestamp, touchedAt: Timestamp): (r: (seq<WhatsAppChat>, WhatsAppChat))
    ensures r.1.isAiActive
    ensures r.1.id == ChatIdAt(idAt)
    ensures r.1.contact.name == contactName
    ensures |r.1.messages| == 2
    ensures r.1.messages[0] == ChatMessage(User, initialMessage, Some(sentAt))
    ensures r.1.messages[1].role == Assistant && r.1.messages[1].timestamp == Some(answeredAt)
    ensures r.1.messages[1].content == GenerateChatResponse([r.1.messages[0]], products, settings, ai)
    ensures r.1.lastMessageTimestamp == touchedAt
    ensures |r.0| == |chats| + 1 && r.0[0] == r.1 && r.0[1..] == chats
  {
    var first := ChatMessage(User, initialMessage, Some(sentAt));
    var answer := GenerateChatResponse([first], products, settings, ai);
    var chat := WhatsAppChat(
      ChatIdAt(idAt),
      Contact("contact_" + NatToString(contactAt), contactName, AvatarUrl(contactName)),
      [first, ChatMessage(Assistant, answer, Some(answeredAt))],
      true,
      touchedAt);
    ([chat] + chats, chat)
  }

  /**
   The first answer of a new chat always comes from the provider, which is
   sent no earlier turns and the first message as the new one.
   */
  lemma CreateChatConsultsProvider(chats: seq<WhatsAppChat>, contactName: string, initialMessage: string,
                                   products: seq<Product>, settings: Settings, ai: ChatRequest -> ModelReply,
                                   idAt: Timestamp, contactAt: Timestamp, sentAt: Timestamp,
                                   answeredAt: Timestamp, touchedAt: Timestamp)
    ensures var reply := ai(ChatRequest(CreateSystemInstruction(products, settings), [], initialMessage));
      CreateChat(chats, contactName, initialMessage, products, settings, ai,
                 idAt, contactAt, sentAt, answeredAt, touchedAt).1.messages[1].content
        == if reply.Answered? then reply.text else CHAT_ERROR_REPLY
  {
    UserLastReachesProvider([], initialMessage, Some(sentAt), products, settings);
    assert [] + [ChatMessage(User, initialMessage, Some(sentAt))] == [ChatMessage(User, initialMessage, Some(sentAt))];
  }

  /** Whether the server answers a new message of this role in a chat in this AI state. */
  predicate AutoReplies(isAiActive: bool, role: ChatRole)
  {
    isAiActive && role == User
  }

  /**
   POST /chats/:id/message: appends the message to the first chat with the id
   and, when that chat's AI is on and the message is the customer's, the
   assistant's answer after it. The message and the activity time share one
   clock reading (`sentAt`); the answer (`answeredAt`) and the activity time
   after it (`touchedAt`) are two further readings.
   */
  function PostMessage(chats: seq<WhatsAppChat>, id: string, content: string, role: ChatRole,
                       products: seq<Product>, settings: Settings, ai: ChatRequest -> ModelReply,
                       sentAt: Timestamp, answeredAt: Timestamp, touchedAt: Timestamp): (r: ChatUpdate)
    ensures r.ChatNotFound? <==> FindChat(chats, id).None?
    ensures r.Updated? ==>
      var i := FindChat(chats, id).value;
      var prior := chats[i];
      var sent := ChatMessage(role, content, Some(sentAt));
      && r.chats == chats[i := r.chat]
      && r.chat.id == prior.id && r.chat.contact == prior.contact && r.chat.isAiActive == prior.isAiActive
      && |r.chat.messages| > |prior.messages|
      && r.chat.messages[..|prior.messages| + 1] == prior.messages + [sent]
      && (AutoReplies(prior.isAiActive, role) ==>
            |r.chat.messages| == |prior.messages| + 2
            && r.chat.messages[|prior.messages| + 1]
               == ChatMessage(Assistant, GenerateChatResponse(prior.messages + [sent], products, settings, ai), Some(answeredAt))
            && r.chat.lastMessageTimestamp == touchedAt)
      && (!AutoReplies(prior.isAiActive, role) ==>
            |r.chat.messages| == |prior.messages| + 1 && r.chat.lastMessageTimestamp == sentAt)
  {
    match FindChat(chats, id)
    case None => ChatNotFound
    case Some(i) =>
      var prior := chats[i];
      var sent := ChatMessage(role, content, Some(sentAt));
      var withSent := prior.(messages := prior.messages + [sent], lastMessageTimestamp := sentAt);
      var chat :=
        if AutoReplies(prior.isAiActive, role) then
          var answer := GenerateChatResponse(withSent.messages, products, settings, ai);
          withSent.(messages := withSent.messages + [ChatMessage(Assistant, answer, Some(answeredAt))], lastMessageTimestamp := touchedAt)
        else withSent;
      assert chat.messages[..|prior.messages| + 1] == prior.messages + [sent];
      Updated(chats[i := chat], chat)
  }

  /** The list keeps its length and every chat but the first one with the id. */
  lemma PostMessageTouchesOnlyTarget(chats: seq<WhatsAppChat>, id: string, content: string, role: ChatRole,
                                     products: seq<Product>, settings: Settings, ai: ChatRequest -> ModelReply,
                                     sentAt: Timestamp, answeredAt: Timestamp, touchedAt: Timestamp)
    ensures var afterList := ChatsAfter(chats, PostMessage(chats, id, content, role, products, settings, ai, sentAt, answeredAt, touchedAt));
      && |afterList| == |chats|
      && forall j :: 0 <= j < |chats| && Some(j) != FindChat(chats, id) ==> afterList[j] == chats[j]
  {
  }

  /** An automatic answer comes from the provider: its text, or the fixed apology. */
  lemma PostMessageAnswerFromProvider(chats: seq<WhatsAppChat>, id: string, content: string,
                                      products: seq<Product>, settings: Settings, ai: ChatRequest -> ModelReply,
                                      sentAt: Timestamp, answeredAt: Timestamp, touchedAt: Timestamp)
    requires FindChat(chats, id).Some? && chats[FindChat(chats, id).value].isAiActive
    ensures var prior := chats[FindChat(chats, id).value];
      var r := PostMessage(chats, id, content, User, products, settings, ai, sentAt, answeredAt, touchedAt);
      var reply := ai(ChatRequest(CreateSystemInstruction(products, settings), ConvertHistory(prior.messages), content));
      r.chat.messages[|prior.messages| + 1].content == if reply.Answered? then reply.text else CHAT_ERROR_REPLY
  {
    var prior := chats[FindChat(chats, id).value];
    UserLastReachesProvider(prior.messages, content, Some(sentAt), products, settings);
  }

  /** POST /chats/:id/toggle-ai: sets the first matching chat's flag to the requested value. */
  function ToggleAi(chats: seq<WhatsAppChat>, id: string, isAiActive: bool): (r: ChatUpdate)
    ensures r.ChatNotFound? <==> FindChat(chats, id).None?
    ensures r.Updated? ==>
      var i := FindChat(chats, id).value;
      r.chats == chats[i := r.chat] && r.chat == chats[i].(isAiActive := isAiActive)
  {
    match FindChat(chats, id)
    case None => ChatNotFound
    case Some(i) =>
      var chat := chats[i].(isAiActive := isAiActive);
      Updated(chats[i := chat], chat)
  }

  /**
   Toggling sets rather than negates: repeating a request changes nothing more,
   and no chat's messages change.
   */
  lemma ToggleAiIdempotent(chats: seq<WhatsAppChat>, id: string, isAiActive: bool)
    ensures var once := ChatsAfter(chats, ToggleAi(chats, id, isAiActive));
      ChatsAfter(once, ToggleAi(once, id, isAiActive)) == once
    ensures var once := ChatsAfter(chats, ToggleAi(chats, id, isAiActive));
      |once| == |chats| && forall j :: 0 <= j < |chats| ==> once[j].messages == chats[j].messages
  {
    var u := ToggleAi(chats, id, isAiActive);
    if u.Updated? {
      var i := FindChat(chats, id).value;
      var once := u.chats;
      assert forall j :: 0 <= j < |once| ==> once[j].id == chats[j].id;
      assert FindChat(once, id) == Some(i);
    }
  }

  /** The answer of POST /chats/:id/report. */
  datatype SummaryResponse = Summary(text: string) | SummaryNotFound

  /**
   POST /chats/:id/report: the summary of the first matching chat's messages.
   The route returns no chat list: it cannot change one.
   */
  function ReportSummary(chats: seq<WhatsAppChat>, id: string, ai: string -> ModelReply): (r: SummaryResponse)
    ensures r.SummaryNotFound? <==> FindChat(chats, id).None?
    ensures r.Summary? ==>
      var reply := ai(Transcript(chats[FindChat(chats, id).value].messages));
      r.text == if reply.Answered? then reply.text else SUMMARY_ERROR_REPLY
  {
    match FindChat(chats, id)
    case None => SummaryNotFound
    case Some(i) => Summary(GenerateOrderSummary(chats[i].messages, ai))
  }
}

=== FILE: strings.dfy ===
/**
 The JavaScript string operations the dashboard and the server rely on,
 restated over `seq<char>`: `Array.prototype.join`, `String.prototype.split`
 on one character, `toLowerCase` (ASCII letters only), `includes`, `trim`,
 `Number.prototype.toString` for integers, `slice(-n)` and the global
 `replace` of one character by a string.
 */
module Strings {

  // ---------------------------------------------------------------------------
  // join / split

  /** Sum of the lengths of `parts`. */
  function TotalLength(parts: seq<string>): nat
  {
    if |parts| == 0 then 0 else |parts[0]| + TotalLength(parts[1..])
  }

  /** `parts.join(sep)`: the empty list joins to the empty string. */
  function Join(parts: seq<string>, sep: string): (r: string)
    ensures |parts| == 0 ==> r == ""
    ensures |parts| > 0 ==> |r| == TotalLength(parts) + (|parts| - 1) * |sep|
    ensures |parts| > 0 ==> parts[0] <= r
  {
    if |parts| == 0 then ""
    else if |parts| == 1 then parts[0]
    else parts[0] + sep + Join(parts[1..], sep)
  }

  /** Joining non-empty parts gives the empty string only for the empty list. */
  lemma JoinEmptyIff(parts: seq<string>, sep: string)
    requires forall i :: 0 <= i < |parts| ==> |parts[i]| > 0
    ensures Join(parts, sep) == "" <==> |parts| == 0
  {
    if |parts| > 0 {
      assert |parts[0]| > 0;
      assert parts[0] <= Join(parts, sep);
    }
  }

  /** Joining two non-empty lists is joining each and putting one separator between. */
  lemma {:induction false} JoinAppend(a: seq<string>, b: seq<string>, sep: string)
    requires |a| > 0 && |b| > 0
    ensures Join(a + b, sep) == Join(a, sep) + sep + Join(b, sep)
    decreases |a|
  {
    if |a| == 1 {
      assert (a + b)[1..] == b;
    } else {
      assert (a + b)[1..] == a[1..] + b;
      JoinAppend(a[1..], b, sep);
    }
  }

  /** `s.split(c)` for a one-character separator; never returns the empty list. */
  function Split(s: string, c: char): (r: seq<string>)
    ensures |r| >= 1
    ensures forall i :: 0 <= i < |r| ==> c !in r[i]
    decreases |s|
  {
    if |s| == 0 then [""]
    else if s[0] == c then [""] + Split(s[1..], c)
    else
      var rest := Split(s[1..], c);
      [[s[0]] + rest[0]] + rest[1..]
  }

  /** A separator-free string splits into itself. */
  lemma {:induction false} SplitNoSeparator(s: string, c: char)
    requires c !in s
    ensures Split(s, c) == [s]
    decreases |s|
  {
    if |s| > 0 {
      assert c !in s[1..];
      SplitNoSeparator(s[1..], c);
      assert [s[0]] + s[1..] == s;
    }
  }

  /** Splitting `p + [c] + t` cuts at the first separator. */
  lemma {:induction false} SplitAtFirst(p: string, c: char, t: string)
    requires c !in p
    ensures Split(p + [c] + t, c) == [p] + Split(t, c)
    decreases |p|
  {
    var s := p + [c] + t;
    if |p| == 0 {
      assert s == [c] + t;
      assert s[1..] == t;
    } else {
      assert s[0] == p[0];
      assert s[1..] == p[1..] + [c] + t;
      assert c !in p[1..];
      SplitAtFirst(p[1..], c, t);
      assert [p[0]] + p[1..] == p;
    }
  }

  /** Splitting on the separator undoes joining with it, when no part holds it. */
  lemma {:induction false} SplitJoin(parts: seq<string>, c: char)
    requires |parts| > 0
    requires forall i :: 0 <= i < |parts| ==> c !in parts[i]
    ensures Split(Join(parts, [c]), c) == parts
    decreases |parts|
  {
    if |parts| == 1 {
      SplitNoSeparator(parts[0], c);
    } else {
      SplitJoin(parts[1..], c);
      SplitAtFirst(parts[0], c, Join(parts[1..], [c]));
      assert parts == [parts[0]] + parts[1..];
    }
  }

  // ---------------------------------------------------------------------------
  // toLowerCase

  predicate IsUpperAscii(c: char)
  {
    'A' <= c <= 'Z'
  }

  function LowerChar(c: char): char
  {
    if IsUpperAscii(c) then (c as int + 32) as char else c
  }

  /** `s.toLowerCase()` restricted to ASCII letters. */
  function ToLower(s: string): (r: string)
    ensures |r| == |s|
    ensures forall i :: 0 <= i < |r| ==> !IsUpperAscii(r[i])
    ensures forall i :: 0 <= i < |s| && !IsUpperAscii(s[i]) ==> r[i] == s[i]
    ensures forall i :: 0 <= i < |s| && IsUpperAscii(s[i]) ==> r[i] as int == s[i] as int + 32
  {
    seq(|s|, i requires 0 <= i < |s| => LowerChar(s[i]))
  }

  /** Lowering an already lowered string changes nothing. */
  lemma ToLowerIdempotent(s: string)
    ensures ToLower(ToLower(s)) == ToLower(s)
  {
  }

  // ---------------------------------------------------------------------------
  // includes

  /** `needle` occurs in `hay` starting at position `i`. */
  predicate OccursAt(hay: string, needle: string, i: int)
  {
    0 <= i && i + |needle| <= |hay| && hay[i..i + |needle|] == needle
  }

  /** `needle` occurs in `hay` at some position. */
  ghost predicate Occurs(hay: string, needle: string)
  {
    exists i :: OccursAt(hay, needle, i)
  }

  /** Past a mismatch at position 0, an occurrence is one in the tail. */
  lemma OccursInTail(hay: string, needle: string)
    requires |hay| > 0 && !(needle <= hay)
    ensures Occurs(hay, needle) <==> Occurs(hay[1..], needle)
  {
    if Occurs(hay, needle) {
      var i :| OccursAt(hay, needle, i);
      if i == 0 {
        assert false;
      }
      assert hay[1..][i - 1..i - 1 + |needle|] == hay[i..i + |needle|];
      assert OccursAt(hay[1..], needle, i - 1);
    }
    if Occurs(hay[1..], needle) {
      var i :| OccursAt(hay[1..], needle, i);
      assert hay[1..][i..i + |needle|] == hay[i + 1..i + 1 + |needle|];
      assert OccursAt(hay, needle, i + 1);
    }
  }

  /** `hay.includes(needle)`, computed by trying each start position in turn. */
  function Includes(hay: string, needle: string): (b: bool)
    ensures b <==> Occurs(hay, needle)
    decreases |hay|
  {
    if needle <= hay then
      assert OccursAt(hay, needle, 0);
      true
    else if |hay| == 0 then
      assert forall i :: !OccursAt(hay, needle, i);
      false
    else
      OccursInTail(hay, needle);
      Includes(hay[1..], needle)
  }

  /** The empty string occurs in every string. */
  lemma IncludesEmpty(hay: string)
    ensures Includes(hay, "")
  {
    assert OccursAt(hay, "", 0);
  }

  // ---------------------------------------------------------------------------
  // trim

  /** ECMAScript WhiteSpace and LineTerminator code points, which `trim` removes. */
  predicate IsSpace(c: char)
  {
    || c == ' ' || c == '\t' || c == '\n' || c == '\r'
    || c == '\U{000B}' || c == '\U{000C}' || c == '\U{00A0}' || c == '\U{1680}'
    || ('\U{2000}' <= c <= '\U{200A}')
    || c == '\U{2028}' || c == '\U{2029}' || c == '\U{202F}' || c == '\U{205F}'
    || c == '\U{3000}' || c == '\U{FEFF}'
  }

  /** The end of the run of white space that starts at `i`. */
  function SpaceRunEnd(s: string, i: nat): (j: nat)
    requires i <= |s|
    ensures i <= j <= |s|
    ensures forall k :: i <= k < j ==> IsSpace(s[k])
    ensures j < |s| ==> !IsSpace(s[j])
    decreases |s| - i
  {
    if i < |s| && IsSpace(s[i]) then SpaceRunEnd(s, i + 1) else i
  }

  /** The start of the run of white space that ends at `j`, looking no further back than `lo`. */
  function SpaceRunStart(s: string, lo: nat, j: nat): (i: nat)
    requires lo <= j <= |s|
    ensures lo <= i <= j
    ensures forall k :: i <= k < j ==> IsSpace(s[k])
    ensures i > lo ==> !IsSpace(s[i - 1])
    decreases j
  {
    if j > lo && IsSpace(s[j - 1]) then SpaceRunStart(s, lo, j - 1) else j
  }

  /**
   `s.trim()`: the slice of `s` left after cutting the white space at both
   ends. It is empty exactly when `s` is all white space, and otherwise starts
   and ends with a non-space.
   */
  function Trim(s: string): (r: string)
    ensures var i := SpaceRunEnd(s, 0); i + |r| <= |s| && r == s[i..i + |r|]
    ensures forall k :: 0 <= k < SpaceRunEnd(s, 0) ==> IsSpace(s[k])
    ensures forall k :: SpaceRunEnd(s, 0) + |r| <= k < |s| ==> IsSpace(s[k])
    ensures r == "" <==> forall k :: 0 <= k < |s| ==> IsSpace(s[k])
    ensures |r| > 0 ==> !IsSpace(r[0]) && !IsSpace(r[|r| - 1])
  {
    var i := SpaceRunEnd(s, 0);
    var j := SpaceRunStart(s, i, |s|);
    assert i < j ==> !IsSpace(s[i]) && !IsSpace(s[j - 1]);
    s[i..j]
  }

  // ---------------------------------------------------------------------------
  // decimal text of integers

  predicate IsDigit(c: char)
  {
    '0' <= c <= '9'
  }

  function DigitChar(d: nat): (c: char)
    requires d < 10
    ensures IsDigit(c)
  {
    ('0' as int + d) as char
  }

  function DigitValue(c: char): (d: nat)
    requires IsDigit(c)
    ensures d < 10
  {
    c as int - '0' as int
  }

  /** Decimal text of a natural number, without leading zeros. */
  function NatToString(n: nat): (r: string)
    ensures |r| >= 1
    ensures forall i :: 0 <= i < |r| ==> IsDigit(r[i])
    ensures r[0] == '0' ==> n == 0
  {
    if n < 10 then [DigitChar(n)] else NatToString(n / 10) + [DigitChar(n % 10)]
  }

  /** The value of a string of decimal digits. */
  function ParseDigits(s: string): nat
    requires forall i :: 0 <= i < |s| ==> IsDigit(s[i])
  {
    if |s| == 0 then 0 else ParseDigits(s[..|s| - 1]) * 10 + DigitValue(s[|s| - 1])
  }

  /** Reading back the decimal text of `n` gives `n`. */
  lemma {:induction false} ParseNatToString(n: nat)
    ensures ParseDigits(NatToString(n)) == n
  {
    var r := NatToString(n);
    if n >= 10 {
      ParseNatToString(n / 10);
      assert r[..|r| - 1] == NatToString(n / 10);
    }
  }

  /** Distinct numbers have distinct decimal texts. */
  lemma NatToStringInjective(a: nat, b: nat)
    ensures NatToString(a) == NatToString(b) ==> a == b
  {
    ParseNatToString(a);
    ParseNatToString(b);
  }

  /** `n.toString()` for an integral JavaScript number. */
  function IntToString(n: int): (r: string)
    ensures n < 0 <==> |r| > 0 && r[0] == '-'
  {
    if n < 0 then "-" + NatToString(-n) else NatToString(n)
  }

  /** Reads an optional minus sign followed by decimal digits. */
  function ParseInt(s: string): int
    requires |s| > 0 && s[0] == '-' ==> forall i :: 1 <= i < |s| ==> IsDigit(s[i])
    requires !(|s| > 0 && s[0] == '-') ==> forall i :: 0 <= i < |s| ==> IsDigit(s[i])
  {
    if |s| > 0 && s[0] == '-' then -(ParseDigits(s[1..]) as int) else ParseDigits(s)
  }

  /** Reading back the decimal text of an integer gives the integer. */
  lemma ParseIntToString(n: int)
    ensures ParseInt(IntToString(n)) == n
  {
    if n < 0 {
      assert IntToString(n)[1..] == NatToString(-n);
      ParseNatToString(-n);
    } else {
      ParseNatToString(n);
    }
  }

  // ---------------------------------------------------------------------------
  // slice(-n)

  /** `s.slice(-n)` for `n > 0`: the last `n` characters, or all of a shorter `s`. */
  function LastChars(s: string, n: nat): (r: string)
    requires n > 0
    ensures |r| == if |s| < n then |s| else n
    ensures s == s[..|s| - |r|] + r
  {
    if |s| <= n then s else s[|s| - n..]
  }

  // ---------------------------------------------------------------------------
  // replace(/c/g, rep)

  /** `s.replace(/c/g, rep)`: every occurrence of `c` becomes `rep`. */
  function ReplaceChar(s: string, c: char, rep: string): (r: string)
    ensures c !in rep ==> c !in r
    ensures forall x :: x !in rep && x in r ==> x in s
  {
    if |s| == 0 then "" else (if s[0] == c then rep else [s[0]]) + ReplaceChar(s[1..], c, rep)
  }

  /** Replacing distributes over concatenation. */
  lemma {:induction false} ReplaceCharAppend(a: string, b: string, c: char, rep: string)
    ensures ReplaceChar(a + b, c, rep) == ReplaceChar(a, c, rep) + ReplaceChar(b, c, rep)
    decreases |a|
  {
    if |a| == 0 {
      assert a + b == b;
    } else {
      assert (a + b)[0] == a[0];
      assert (a + b)[1..] == a[1..] + b;
      ReplaceCharAppend(a[1..], b, c, rep);
    }
  }

  /** A string without `c` is left alone. */
  lemma {:induction false} ReplaceCharAbsent(s: string, c: char, rep: string)
    requires c !in s
    ensures ReplaceChar(s, c, rep) == s
    decreases |s|
  {
    if |s| > 0 {
      assert c !in s[1..];
      ReplaceCharAbsent(s[1..], c, rep);
      assert [s[0]] + s[1..] == s;
    }
  }
}

=== FILE: types.dfy ===
/**
 The records shared by the server and the dashboard (types.ts). Wall-clock
 instants, which the source keeps as ISO-8601 text and compares through
 `Date.getTime()`, are milliseconds since the epoch here.
 */
module Types {
  import opened Lists

  /** Milliseconds since the epoch. */
  type Timestamp = nat

  datatype Product = Product(
    id: string,
    name: string,
    description: string,
    image: string,
    productType: string,
    size: string,
    quantity: int,
    productionTime: string,
    isActive: bool)

  /** The three free-text company policies injected into the assistant's prompt. */
  datatype Settings = Settings(paymentPolicy: string, shippingPolicy: string, artBriefingPolicy: string)

  datatype ChatRole = User | Assistant | System

  datatype ChatMessage = ChatMessage(role: ChatRole, content: string, timestamp: Option<Timestamp>)

  datatype Contact = Contact(id: string, name: string, avatar: string)

  datatype WhatsAppChat = WhatsAppChat(
    id: string,
    contact: Contact,
    messages: seq<ChatMessage>,
    isAiActive: bool,
    lastMessageTimestamp: Timestamp)

  datatype Report = Report(id: string, chatId: string, contactName: string, generatedAt: string, summary: string)

  /** Position of the first chat with the given id, as `chats.find(c => c.id === id)`. */
  function FindChat(chats: seq<WhatsAppChat>, id: string): (r: Option<nat>)
    ensures r.Some? ==> r.value < |chats| && chats[r.value].id == id
    ensures r.Some? ==> forall j :: 0 <= j < r.value ==> chats[j].id != id
    ensures r.None? <==> forall j :: 0 <= j < |chats| ==> chats[j].id != id
  {
    FirstIndex(chats, (c: WhatsAppChat) => c.id == id)
  }

  /** The generated avatar address for a seed (contact name or phone number). */
  function AvatarUrl(seed: string): string
  {
    "https://i.pravatar.cc/150?u=" + seed
  }
}

=== FILE: webhook.dfy ===
/**
 The messaging-carrier webhook (`handleIncomingMessage` in
 services/twilioservice.ts, and the earlier copy in twilioService.ts, which
 takes its state from data.ts and does not save it): find or create the sender's
 chat, append the customer's message, and, when the chat's AI is on, append
 the assistant's answer. The carrier markup wrapped around the reply text is
 not modelled, only the text.
 */
module Webhook {
  import opened Lists
  import opened Strings
  import opened Types
  import opened ChatService
  import Server

  const AI_DISABLED_REPLY := "O assistente de IA está desativado para esta conversa."

  /** The chat list after the webhook, and the text sent back to the sender. */
  datatype WebhookResult = WebhookResult(chats: seq<WhatsAppChat>, replyText: string)

  /** Position of the first chat whose contact is the sender. */
  function FindBySender(chats: seq<WhatsAppChat>, from: string): (r: Option<nat>)
    ensures r.Some? ==> r.value < |chats| && chats[r.value].contact.id == from
    ensures r.Some? ==> forall j :: 0 <= j < r.value ==> chats[j].contact.id != from
    ensures r.None? <==> forall j :: 0 <= j < |chats| ==> chats[j].contact.id != from
  {
    FirstIndex(chats, (c: WhatsAppChat) => c.contact.id == from)
  }

  /** The chat opened for an unknown sender at instant `t`. */
  function NewSenderChat(from: string, t: Timestamp): WhatsAppChat
  {
    WhatsAppChat(Server.ChatIdAt(t), Contact(from, "Cliente " + LastChars(from, 4), AvatarUrl(from)), [], true, t)
  }

  /** The list holding the sender's chat, and that chat's position in it. */
  function LocateSender(chats: seq<WhatsAppChat>, from: string, created: Timestamp): (r: (seq<WhatsAppChat>, nat))
    ensures r.1 < |r.0| && r.0[r.1].contact.id == from
    ensures FindBySender(chats, from).Some? ==> r == (chats, FindBySender(chats, from).value)
    ensures FindBySender(chats, from).None? ==> r == ([NewSenderChat(from, created)] + chats, 0)
  {
    match FindBySender(chats, from)
    case Some(i) => (chats, i)
    case None => ([NewSenderChat(from, created)] + chats, 0)
  }

  /**
   `handleIncomingMessage(from, body)`. The clock reads `created` when a chat is
   created, `received` for the customer's message and `answered` for the
   assistant's.
   */
  function HandleIncomingMessage(chats: seq<WhatsAppChat>, from: string, body: string,
                                 products: seq<Product>, settings: Settings, ai: ChatRequest -> ModelReply,
                                 created: Timestamp, received: Timestamp, answered: Timestamp): (r: WebhookResult)
    ensures var loc := LocateSender(chats, from, created);
      var list, i := loc.0, loc.1;
      var prior := list[i];
      var incoming := ChatMessage(User, body, Some(received));
      && |r.chats| == |list|
      && (forall j :: 0 <= j < |list| && j != i ==> r.chats[j] == list[j])
      && r.chats[i].id == prior.id && r.chats[i].contact == prior.contact && r.chats[i].isAiActive == prior.isAiActive
      && (prior.isAiActive ==>
            var answer := GenerateChatResponse(prior.messages + [incoming], products, settings, ai);
            r.chats[i].messages == prior.messages + [incoming, ChatMessage(Assistant, answer, Some(answered))]
            && r.chats[i].lastMessageTimestamp == answered
            && r.replyText == answer)
      && (!prior.isAiActive ==>
            r.chats[i].messages == prior.messages + [incoming]
            && r.chats[i].lastMessageTimestamp == received
            && r.replyText == AI_DISABLED_REPLY)
  {
    var loc := LocateSender(chats, from, created);
    var list, i := loc.0, loc.1;
    var prior := list[i];
    var incoming := ChatMessage(User, body, Some(received));
    var withIncoming := prior.(messages := prior.messages + [incoming], lastMessageTimestamp := received);
    if withIncoming.isAiActive then
      var answer := GenerateChatResponse(withIncoming.messages, products, settings, ai);
      var chat := withIncoming.(messages := withIncoming.messages + [ChatMessage(Assistant, answer, Some(answered))],
                                lastMessageTimestamp := answered);
      assert chat.messages == prior.messages + [incoming, ChatMessage(Assistant, answer, Some(answered))];
      WebhookResult(list[i := chat], answer)
    else
      WebhookResult(list[i := withIncoming], AI_DISABLED_REPLY)
  }

  /** A known sender's chat is reused: the list keeps its length and order of chats. */
  lemma KnownSenderReused(chats: seq<WhatsAppChat>, from: string, body: string,
                          products: seq<Product>, settings: Settings, ai: ChatRequest -> ModelReply,
                          created: Timestamp, received: Timestamp, answered: Timestamp)
    requires exists j :: 0 <= j < |chats| && chats[j].contact.id == from
    ensures var r := HandleIncomingMessage(chats, from, body, products, settings, ai, created, received, answered);
      && |r.chats| == |chats|
      && forall j :: 0 <= j < |chats| ==> r.chats[j].id == chats[j].id && r.chats[j].contact == chats[j].contact
  {
  }

  /**
   An unknown sender gets a new AI-active chat at the head of the list, named
   after the last four characters of the number; the other chats follow unchanged.
   */
  lemma NewSenderPrepended(chats: seq<WhatsAppChat>, from: string, body: string,
                           products: seq<Product>, settings: Settings, ai: ChatRequest -> ModelReply,
                           created: Timestamp, received: Timestamp, answered: Timestamp)
    requires forall j :: 0 <= j < |chats| ==> chats[j].contact.id != from
    ensures var r := HandleIncomingMessage(chats, from, body, products, settings, ai, created, received, answered);
      && |r.chats| == |chats| + 1
      && r.chats[1..] == chats
      && r.chats[0].contact.id == from
      && r.chats[0].contact.name == "Cliente " + LastChars(from, 4)
      && r.chats[0].isAiActive
      && r.chats[0].messages[0] == ChatMessage(User, body, Some(received))
      && |r.chats[0].messages| == 2
  {
    var r := HandleIncomingMessage(chats, from, body, products, settings, ai, created, received, answered);
    var list := [NewSenderChat(from, created)] + chats;
    assert r.chats[1..] == list[1..];
  }

  /**
   With the AI on, the reply is always the provider's (or its apology): the
   history ends with the customer's message, so the guard never refuses it.
   */
  lemma ActiveReplyFromProvider(chats: seq<WhatsAppChat>, from: string, body: string,
                                products: seq<Product>, settings: Settings, ai: ChatRequest -> ModelReply,
                                created: Timestamp, received: Timestamp, answered: Timestamp)
    requires LocateSender(chats, from, created).0[LocateSender(chats, from, created).1].isAiActive
    ensures var (list, i) := LocateSender(chats, from, created);
      var reply := ai(ChatRequest(CreateSystemInstruction(products, settings), ConvertHistory(list[i].messages), body));
      HandleIncomingMessage(chats, from, body, products, settings, ai, created, received, answered).replyText
        == if reply.Answered? then reply.text else CHAT_ERROR_REPLY
  {
    var (list, i) := LocateSender(chats, from, created);
    UserLastReachesProvider(list[i].messages, body, Some(received), products, settings);
  }
}
